=== FILE: README.md ===
# pytube playlist pagination and stream classification in Dafny

This project models the playlist core of pytube and proves properties of
the model. It covers:

- **Playlist id parsing** from a URL or a bare id. This includes the
  `parse_qs` rules the id lookup depends on.
- **The continuation request builder**: the AJAX URL carrying the token
  twice, plus the fixed client headers.
- **The page parser** (`_extract_videos`). It finds the video list
  container in either response shape, reads the continuation token, maps
  every element to a `(watch path, title)` pair, then `uniqueify`s the page.
- **The page generator** (`_paginate`) and the loop that drains it into
  the video list (`_fill_video_urls`).
- **Playlist accessors**: indexing, slicing and length of the built
  playlist, its title and its numbered file-name prefixes.
- **`uniqueify`**, the order-preserving de-duplication helper.
- **The stream classification**: adaptive or progressive, which tracks a
  stream carries, the codec split, the MIME type split, the title fallback,
  and which fields the printable form shows.

The Dafny modules follow the Python code. `playlist.py` is split over
`PlaylistPage`, `PageLoop`, `Pagination` and `Playlist`:

| Dafny module | covers |
|---|---|
| `Wrappers` | `Option` and `Result`. A call that raises returns `Err(exception)`. |
| `PyJson` | Decoded JSON, and what Python does when the code subscripts it, tests its truth, hashes it or formats it. |
| `Text` | The `str` operations used: `split`, `join`, `replace`, `strip`, `str(int)`, `zfill`. |
| `Helpers` | `uniqueify`. |
| `PlaylistPage` | One page: the parser, the continuation request builder, `_extract_json`, `_video_url` and the legacy HTML path. |
| `PageLoop` | The generator loop, generic over pages and requests. It also gives an independent index-based description of a run and proves the two agree. |
| `Pagination` | The loop instantiated for playlists, the continuation call as written, and `_fill_video_urls`. |
| `Playlist` | `create`, the accessors, `title` and the prefix generator. |
| `Streams` | The stream properties listed above. |

The model takes its collaborators as parameters:

- the network calls (`get`, `fetch`);
- `json.loads` (`decode`);
- the regular-expression searches (`search`, or the already captured group).

The generator's unbounded `while` loop is given a `fuel` bound. Exhausting
the fuel is reported as `OutOfFuel`. It is never confused with a finished
run.

## Model

| member | source | states |
|---|---|---|
| `Helpers.Uniqueify` | pytube/helpers.py:92-100 | The result has no duplicates. Every result element occurs in the input, and every input element occurs in the result. The result is never longer than the input. |
| `Helpers.UniqueifyOrder` | pytube/helpers.py:95-99 | The result lists the elements in the order of their first occurrence in the input. |
| `Helpers.FirstOccurrenceOrderUnique` | pytube/helpers.py:92-100 | Two duplicate-free sequences with the same elements, both in first-occurrence order of the same input, are equal. |
| `Helpers.UniqueifyCharacterised` | pytube/helpers.py:92-100 | Any duplicate-free sequence that holds exactly the input's elements in first-occurrence order is the output of `uniqueify`, so the three properties pin the output down. |
| `Helpers.UniqueifyDistinct` | pytube/helpers.py:92-100 | An input without duplicates comes back unchanged. |
| `Helpers.UniqueifyIdempotent` | pytube/helpers.py:92-100 | Applying `uniqueify` twice gives the same result as applying it once. |
| `Helpers.UniqueifyScan` | pytube/helpers.py:93-100 | The imperative loop, with its `seen` table and its appended list, computes the functional `Uniqueify`, and its result has no duplicates. |
| `PyJson.GetKey` | pytube/contrib/playlist.py:137-144 | `v[k]` succeeds exactly on a dict holding `k` and yields its value. A dict without `k` raises KeyError; any other value raises TypeError. |
| `PyJson.GetIndex` | pytube/contrib/playlist.py:137-144 | `v[i]` succeeds exactly on a list or string long enough. A string yields a one-character string. Out of range raises IndexError, a dict raises KeyError, anything else raises TypeError. |
| `PyJson.Walk` | pytube/contrib/playlist.py:137-144 | A subscript chain fails only with KeyError, IndexError or TypeError: the three exceptions the code catches. |
| `PyJson.WalkAppend` | pytube/contrib/playlist.py:137-158 | Walking a joined path walks the first part, then continues from its result or stops with its exception. |
| `PlaylistPage.ContainerOf` | pytube/contrib/playlist.py:136-153 | The initial-page container is used whenever its path resolves. Otherwise the continuation container is used. The result is `None` exactly when both lookups fail. |
| `PlaylistPage.TokenOf` | pytube/contrib/playlist.py:155-160 | A resolvable token path yields the token. A KeyError or IndexError anywhere on the path yields `None`. A TypeError on the path escapes, and it is the only error that does. |
| `PlaylistPage.EntryOf` | pytube/contrib/playlist.py:165-167 | An element converts exactly when both the video id path and the title path resolve. The title is the `simpleText` value, and the path is `/watch?id=` followed by `str()` of the video id. |
| `PlaylistPage.EntriesOf` | pytube/contrib/playlist.py:162-170 | The list converts exactly when every element converts, giving element-wise results of the same length. On failure the error is that of the first failing element. |
| `PlaylistPage.VideoEntries` | pytube/contrib/playlist.py:154-170 | A list is converted element by element. Any other `contents` value gives no entries or raises. |
| `PlaylistPage.ParseContainer` | pytube/contrib/playlist.py:154-171 | A missing `contents` raises that lookup's exception. A parsed page holds exactly the converted `contents` elements, each once, in the order of their first occurrence. Its token is the one `TokenOf` reads. |
| `PlaylistPage.ExtractVideos` | pytube/contrib/playlist.py:135-171 | A response with neither shape gives an empty page without a token. Otherwise the result is the parse of the container found, and its entries are duplicate-free. |
| `PlaylistPage.InitialShapePreferred` | pytube/contrib/playlist.py:136-144 | When the initial-page path resolves, its container is parsed, even if the continuation shape also matches. |
| `PlaylistPage.ContinuationShapeFallback` | pytube/contrib/playlist.py:145-150 | When the initial-page path fails and the continuation path resolves, the fallback container is parsed. |
| `PlaylistPage.InitialEnvelope` | pytube/contrib/playlist.py:136-144 | A container wrapped in the initial-page envelope is found and parsed. |
| `PlaylistPage.ContinuationEnvelope` | pytube/contrib/playlist.py:145-150 | A container wrapped in a continuation-response envelope (a list) fails the initial lookup and is found by the fallback. |
| `PlaylistPage.VideoItemEntry` | pytube/contrib/playlist.py:165-167 | A video element with id `i` and title `t` becomes `("/watch?id=" + i, t)`. |
| `PlaylistPage.ParseWellFormed` | pytube/contrib/playlist.py:154-171 | Any container object whose `contents` is a list of elements that all convert, with hashable titles and a readable token, parses to the `uniqueify` of the converted entries together with that token, whatever other keys the container and its elements carry. |
| `PlaylistPage.ContainerToken` | pytube/contrib/playlist.py:155-160 | The token stored in a container is the token read back from it, including its absence. |
| `PlaylistPage.MalformedElementAborts` | pytube/contrib/playlist.py:162-170 | One element that fails to convert makes the whole page fail instead of being skipped. |
| `PlaylistPage.SingleVideoPage` | pytube/contrib/playlist.py:135-171 | A one-video initial page parses to that video's entry and the page's token. |
| `PlaylistPage.ContinuationUrlLayout` | pytube/contrib/playlist.py:79-88 | The URL is the AJAX prefix, the token, `&continuation=`, then the token again. The headers are the fixed client-name and client-version pair. |
| `PlaylistPage.ContinuationUrlRoundTrip` | pytube/contrib/playlist.py:79-88 | Reading the token back out of a built URL gives the token. A URL the reader accepts is the one built from its token, so different tokens give different URLs. |
| `PlaylistPage.ExtractJson` | pytube/contrib/playlist.py:173-174 | A failed search raises AttributeError. A capture loses exactly its last character, and an empty capture stays empty. |
| `PlaylistPage.VideoUrl` | pytube/contrib/playlist.py:238-239 | The absolute URL is the site root followed by the watch path, unchanged. |
| `PlaylistPage.OldPairs` | pytube/contrib/playlist.py:124-126 | Each regex match `(path, title)` becomes `(absolute URL, title)`, in order. |
| `PlaylistPage.ExtractVideosOld` | pytube/contrib/playlist.py:122-127 | The result has no duplicates and every URL starts with the site root. Every converted match is in the result, and every result pair comes from some match. The pairs keep the order of their first occurrence. |
| `Pagination.NextRequest` | pytube/contrib/playlist.py:102-118 | A request is built exactly for a truthy token, from its `str()`. The loop guard holds exactly when a request was built. |
| `Pagination.FalsyTokenStops` | pytube/contrib/playlist.py:114-118 | Any falsy token (`None`, `""`, `0`, `False`, `[]`, `{}`) stops pagination, and a truthy one builds its request. |
| `Pagination.FirstPage` | pytube/contrib/playlist.py:95-98 | Without a captured `ytInitialData` assignment, the first page raises AttributeError. |
| `Pagination.LoadPage` | pytube/contrib/playlist.py:110-111 | A failing fetch fails the page with the fetch's exception. |
| `Pagination.FlattenLayout` | pytube/contrib/playlist.py:182-186 | The video list is as long as all pages together. Entry `j` of page `i` sits at position (entries of earlier pages) + `j`. |
| `Pagination.FlattenAppend` | pytube/contrib/playlist.py:182-186 | Accumulating two runs of pages accumulates their entries in order. |
| `Pagination.NoCrossPageDedup` | pytube/contrib/playlist.py:182-186 | Two pages that carry the same entry contribute it twice. |
| `Pagination.ContinuationFetchRaises` | pytube/contrib/playlist.py:108-112 | As written, a first page with a truthy token ends the run with TypeError right after that page. Only a one-page playlist finishes. |
| `Pagination.FillVideoUrls` | pytube/contrib/playlist.py:176-186 | The imperative drain loop ends with the generator's stop reason. Its list is the concatenation of the pages yielded, including the pages before an exception. |
| `PageLoop.Continue` | pytube/contrib/playlist.py:108-120 | With no pending request the loop yields nothing and finishes. It never sends more requests than its fuel. |
| `PageLoop.ContinueFollows` | pytube/contrib/playlist.py:108-120 | The loop's run matches the index description: request `i` is the one pending after the first `i` pages, page `i` answers request `i`, and the run ends for the stated reason. |
| `PageLoop.FollowsUnique` | pytube/contrib/playlist.py:108-120 | The index description has exactly one run: the loop's. |
| `PageLoop.ContinueCharacterised` | pytube/contrib/playlist.py:108-120 | A run is the loop's result if and only if it matches the index description. |
| `PageLoop.ContinueFuel` | pytube/contrib/playlist.py:108-120 | A run that did not run out of fuel is unchanged by any larger fuel. |
| `PageLoop.Paginate` | pytube/contrib/playlist.py:95-120 | A failing first page ends the run with its exception and no pages. Otherwise the first page is yielded first. |
| `PageLoop.TokenChain` | pytube/contrib/playlist.py:95-120 | The generator finishes with `pages` after `requests` if and only if the first page is `pages[0]` and each page names the request that loads the next. The last page must name none, and the fuel must cover the requests. |
| `PageLoop.PaginateCounts` | pytube/contrib/playlist.py:95-120 | A run sends at most `fuel` requests. It yields one page more than it sent requests when it finishes or runs out of fuel, and as many when a request fails. |
| `Playlist.SplitOnce` | pytube/contrib/playlist.py:53 | Splitting at the first `c`: `None` exactly when `c` is absent. Otherwise the parts rebuild the string, and the first part lacks `c`. |
| `Playlist.PlusToSpace` | pytube/contrib/playlist.py:53 | Each `+` becomes a space and every other character is kept, at the same position. |
| `Playlist.QueryPairs` | pytube/contrib/playlist.py:53 | Fields with a blank value are dropped, so every pair has a non-empty value. Its meaning field by field is given by `Playlist.FieldPair`, `Playlist.NoValueField` and `Playlist.QueryPairsAppend`. |
| `Playlist.FieldPair` | pytube/contrib/playlist.py:53 | A field `name=value`, with no `=` in the name, yields the pair of name and value with `+` read as a space, or nothing when the value is blank. |
| `Playlist.NoValueField` | pytube/contrib/playlist.py:53 | A field without `=` yields no pair. |
| `Playlist.QueryPairsAppend` | pytube/contrib/playlist.py:53 | The pairs of a sequence of fields are the pairs of each field, in field order. |
| `Playlist.FirstNamed` | pytube/contrib/playlist.py:53 | The position found is that of the first pair with the name, or the end when there is none. |
| `Playlist.QueryValue` | pytube/contrib/playlist.py:53 | The value is that of the first pair with the name. With no such pair the lookup raises KeyError. |
| `Playlist.ParsePlaylistId` | pytube/contrib/playlist.py:52-55 | The only exception that escapes is KeyError. |
| `Playlist.PlaylistIdOfBareId` | pytube/contrib/playlist.py:52-55 | The input is taken as the id if and only if it has no `?`. An id parsed from a URL without `%` never holds `?`. |
| `Playlist.ListField` | pytube/contrib/playlist.py:53 | The field `list=v` is the pair `("list", v)`, or nothing when `v` is blank. |
| `Playlist.IdFromQuery` | pytube/contrib/playlist.py:52-53 | For a URL with one `?`, the id is the `list` value of the text after it. |
| `Playlist.PlaylistUrlRoundTrip` | pytube/contrib/playlist.py:52-57 | The playlist URL built from an id parses back to that id. A blank id raises KeyError instead. This holds for ids free of the query parser's special characters. |
| `Playlist.FirstListValueWins` | pytube/contrib/playlist.py:53 | When `list` is given twice, the first value is the id, for a first value free of `%` and of the query separators. |
| `Playlist.Create` | pytube/contrib/playlist.py:47-61 | An id-parsing failure is the result, and so is a failed GET of the playlist page. A built playlist carries the parsed id and its playlist URL, and the page GET succeeded. |
| `Playlist.CreateBuiltIsChain` | pytube/contrib/playlist.py:47-61 | A built playlist's video list is the flattened pages of a token chain that starts with the first page of its fetched page and fits in the fuel. |
| `Playlist.CreateRaisedFails` | pytube/contrib/playlist.py:57-61 | An exception the page generator raises after the id parsed and the page was fetched is the exception `create` raises. |
| `Playlist.CreateAlongChain` | pytube/contrib/playlist.py:47-61 | With a fetch that sends its headers, pages forming a token chain build the playlist of all their entries in order. Its length is the sum of the page lengths. |
| `Playlist.CreateMultiPageRaises` | pytube/contrib/playlist.py:58-60 | As written, `create` raises TypeError for every playlist whose first page carries a truthy token. |
| `Playlist.GetItem` | pytube/contrib/playlist.py:194-196 | An integer index succeeds exactly in `-len .. len-1`. Negative indices count from the end, and anything else raises IndexError. |
| `Playlist.SliceBound` | pytube/contrib/playlist.py:194-196 | A normalised slice bound always lies within `0 .. len`. |
| `Playlist.GetSlice` | pytube/contrib/playlist.py:194-196 | The slice is as long as the clamped range and holds the list's elements from its lower bound on. It never raises. |
| `Playlist.FullSlice` | pytube/contrib/playlist.py:194-196 | `[:]` is the whole video list. |
| `Playlist.ItemIsSlice` | pytube/contrib/playlist.py:194-196 | `p[i]` equals the only element of `p[i:i+1]` for every `i` except -1 (where `p[-1:0]` is empty), and `p[-1:]` holds the last item. |
| `Playlist.ItemOfPage` | pytube/contrib/playlist.py:182-199 | In a built playlist, position (entries of earlier pages) + `j` holds entry `j` of page `i`. |
| `Playlist.PlaylistTitle` | pytube/contrib/playlist.py:229-235 | No `<title>` gives `None`. A non-empty title neither starts nor ends with whitespace. |
| `Playlist.TitleOfYouTubePage` | pytube/contrib/playlist.py:229-235 | The usual page title `<name> - YouTube` gives back the name, for any name that does not itself contain `- YouTube` and has no surrounding whitespace. |
| `Playlist.TitleWithoutMark` | pytube/contrib/playlist.py:235 | A title without `- YouTube` is only stripped. |
| `Playlist.PrefixOf` | pytube/contrib/playlist.py:215-220 | The prefix of any `m <= len` has the digit count of `len`, is all digits and reads as `m`. |
| `Playlist.PathNumPrefixesShape` | pytube/contrib/playlist.py:215-220 | There is one prefix per video, each as wide as `len` has digits. The k-th reads as k + 1, or as len - k when reversed. |
| `Playlist.PathNumPrefixesReversed` | pytube/contrib/playlist.py:216-220 | The reversed prefixes are the forward ones in the opposite order. |
| `Playlist.PathNumPrefixesDistinct` | pytube/contrib/playlist.py:215-220 | No prefix repeats. |
| `Streams.TrackClassification` | pytube/streams.py:79-111 | A progressive stream includes both tracks. An adaptive stream includes exactly the track its media type names, and never both. |
| `Streams.SplitMimeType` | pytube/streams.py:54 | The split succeeds exactly when the MIME type has one `/`, and the halves hold no `/`. Otherwise the unpacking raises ValueError. |
| `Streams.MimeTypeRoundTrip` | pytube/streams.py:54 | The halves joined by `/` give back the MIME type. Two slash-free halves joined by `/` split back into themselves. |
| `Streams.ParseCodecs` | pytube/streams.py:113-134 | It raises ValueError exactly for a progressive codec list that is not a pair. The video codec is present exactly when the stream includes a video track, and likewise for audio. The codec taken is the first, or the second for a progressive stream's audio. |
| `Streams.NewStream` | pytube/streams.py:51-58 | Construction succeeds exactly for a MIME type with one `/` and a codec list that is adaptive or a pair. The stored halves rebuild the MIME type, and the stored video and audio codecs are exactly the pair `parse_codecs` returns for the list and the media type. |
| `Streams.Title` | pytube/streams.py:148-156 | The title is never empty. It is the shared title when that is non-empty, and the fixed placeholder otherwise. |
| `Streams.ReprFieldsCases` | pytube/streams.py:185-196 | The fields shown for a progressive video stream, an adaptive video stream and an audio-only stream, each as a list. |
| `Streams.ReprFieldSelection` | pytube/streams.py:185-196 | Identity comes first, progressiveness and type last. Resolution, fps and vcodec are shown exactly for a video track, abr exactly without one, and acodec for any stream without a video track or any progressive stream. No field is shown twice. |
| `Streams.ReprShowsFields` | pytube/streams.py:197 | Every selected field's `name="value"` text occurs in the printable form. |
| `Text.Split` | pytube/streams.py:54 | `str.split` gives one more piece than there are separators, and no piece holds the separator. |
| `Text.JoinSplit` | pytube/streams.py:54 | Joining the pieces of a split with the separator gives back the string. |
| `Text.SplitJoin` | pytube/streams.py:54 | Splitting a join of separator-free pieces gives back the pieces. |
| `Text.StripIsSlice` | pytube/contrib/playlist.py:235 | `strip` keeps one contiguous piece of the input and removes only whitespace on either side. |
| `Text.ReplaceAbsent` | pytube/contrib/playlist.py:235 | `replace` leaves a string without the pattern unchanged. |
| `Text.ReplaceByEmptyShrinks` | pytube/contrib/playlist.py:235 | Deleting a pattern never lengthens the string. |
| `Text.NatToString` | pytube/contrib/playlist.py:215-220 | `str(n)` is a non-empty digit string without a leading zero unless it is `0`. |
| `Text.DecimalRoundTrip` | pytube/contrib/playlist.py:220 | Reading back the decimal text of `n` gives `n`. |
| `Text.DigitsMonotone` | pytube/contrib/playlist.py:215 | A smaller number never needs more digits. |
| `Text.ZFillValue` | pytube/contrib/playlist.py:220 | `zfill` keeps a digit string a digit string of the same value. |

## Left out

- Regular-expression matching is a parameter. This covers the `ytInitialData` search, the `<title>` search and the legacy `findall`. `ExtractJson`, `PlaylistTitle` and `ExtractVideosOld` take the captured groups.
- Playlist.Create: the last-update date read in `__init__` (pytube/contrib/playlist.py:28-36) is not modelled. Its `datetime.strptime` call raises ValueError on a matched date it cannot parse, such as a three-letter word that is not a month abbreviation `%b` accepts, or day 31 of a 30-day month, and that aborts `create`. `Create` does not model this exception.
- `json.loads` is a `decode` parameter. The HTTP client is a `get`/`fetch` parameter that returns a body or an exception. Nothing about `aiohttp`, asynchrony or cancellation is modelled beyond the order of calls.
- PageLoop.Continue: the source's `while` loop is unbounded. The model bounds it with `fuel` and reports `OutOfFuel`. `PageLoop.ContinueFuel` and `PageLoop.TokenChain` show the bound does not change any run that finishes within it.
- PyJson.Format: `str()` of a list or dict used as a video id or token is a fixed placeholder, not Python's repr. Scalars are exact.
- Floating-point JSON numbers are not modelled. Numbers are integers.
- Helpers.Uniqueify: Python's cross-type equality (`True == 1`, `1 == 1.0`) is not modelled. Values are equal only when identical.
- Playlist.QueryValue: `parse_qs` percent-decoding is not modelled. The lemmas that depend on it, `Playlist.PlaylistIdOfBareId`, `Playlist.FirstListValueWins` and `Playlist.PlaylistUrlRoundTrip`, exclude `%` from the text they parse. Splitting on both `&` and `;` follows `parse_qs` before the CVE-2021-23336 security releases. Python 3.6.13, 3.7.10, 3.8.8 and 3.9.2 split on `&` only, so on them `?list=a;b` gives `a;b` where the model gives `a`.
- Playlist.GetSlice: only step 1 is modelled, not general slice steps.
- Streams.NewStream: the MIME-type/codec extraction from the `type` field is taken as given, because it lives in a module outside this model. So are the itag profile table, `filesize`, `filesize_approx`, `expiration` and `is_otf`/`bitrate`.
- `print(p)` in the parser and the debug log in the generator are output only. The model omits them.
- The `deprecated` and `cache` decorators, `_find_load_more_url` (deprecated, unused) and the playlist's `__repr__` are not modelled.
- The generator and the drain loop are modelled as a run of pages. Consuming the async generator lazily is not modelled.
- The behaviour the model follows, as the code has it:
  - a malformed element aborts the whole page (`PlaylistPage.MalformedElementAborts`);
  - entries are de-duplicated within a page only (`Pagination.NoCrossPageDedup`);
  - entries hold the relative `/watch?id=` path;
  - pagination stops only on a falsy token;
  - continuation responses go through the same two-shape parser as the first page;
  - errors are the Python exceptions the code raises.

## Findings

| source | as written | input that shows it | evidently intended | confidence | as-written member | corrected member |
|---|---|---|---|---|---|---|
| pytube/contrib/playlist.py:110 | `request.get(load_more_url, extra_headers=headers)`, but `get` (pytube/request.py:15) takes only `url`, so every continuation call raises TypeError | a playlist whose first page carries the token `"TOK1"`: `create` raises TypeError after the first page | send the continuation request with the client headers and parse its response | not executed | `Pagination.ContinuationFetchRaises` | `PageLoop.TokenChain` |

`Playlist.CreateMultiPageRaises` carries the as-written result up to
`create`. The corrected behaviour is `Playlist.Create` given a fetch that
honours the headers. Over such a fetch, `Playlist.CreateAlongChain` proves
that every page of a token chain is fetched and accumulated.

=== FILE: helpers.dfy ===
/** `uniqueify` from the helpers module: drop every repeat of an element
    already seen, keeping the rest in their original order. */
module Helpers {

  predicate NoDuplicates<T(==)>(s: seq<T>)
  {
    forall i, j :: 0 <= i < j < |s| ==> s[i] != s[j]
  }

  /** Position of the first occurrence of `x` in `s`. */
  function FirstIndex<T(==)>(s: seq<T>, x: T): (k: nat)
    requires x in s
    ensures k < |s| && s[k] == x
    ensures forall j :: 0 <= j < k ==> s[j] != x
  {
    if s[0] == x then 0 else 1 + FirstIndex(s[1..], x)
  }

  /** Every element of `r` occurs in `xs`, and `r` lists them in the order
      of their first occurrences in `xs`. */
  predicate InFirstOccurrenceOrder<T(==)>(xs: seq<T>, r: seq<T>)
  {
    && (forall i :: 0 <= i < |r| ==> r[i] in xs)
    && (forall i, j :: 0 <= i < j < |r| ==> FirstIndex(xs, r[i]) < FirstIndex(xs, r[j]))
  }

  /** The loop of `uniqueify` run over `xs` with `seen` already filled. */
  function Dedup<T(==)>(xs: seq<T>, seen: set<T>): (r: seq<T>)
    ensures NoDuplicates(r)
    ensures forall i :: 0 <= i < |r| ==> r[i] in xs && r[i] !in seen
    ensures forall i :: 0 <= i < |xs| && xs[i] !in seen ==> xs[i] in r
    ensures |r| <= |xs|
  {
    if |xs| == 0 then []
    else if xs[0] in seen then Dedup(xs[1..], seen)
    else [xs[0]] + Dedup(xs[1..], seen + {xs[0]})
  }

  /** `uniqueify(duped_list)`. */
  function Uniqueify<T(==)>(xs: seq<T>): (r: seq<T>)
    ensures NoDuplicates(r)
    ensures forall i :: 0 <= i < |r| ==> r[i] in xs
    ensures forall i :: 0 <= i < |xs| ==> xs[i] in r
    ensures |r| <= |xs|
  {
    Dedup(xs, {})
  }

  /** The scan keeps first occurrences in their input order. */
  lemma {:induction false} DedupOrder<T>(xs: seq<T>, seen: set<T>)
    ensures InFirstOccurrenceOrder(xs, Dedup(xs, seen))
    decreases |xs|
  {
    if |xs| > 0 {
      var x := xs[0];
      var seen' := if x in seen then seen else seen + {x};
      var tail := Dedup(xs[1..], seen');
      DedupOrder(xs[1..], seen');
      ShiftOrder(xs, tail, seen');
      if x !in seen {
        ConsOrder(xs, tail);
      }
    }
  }

  /** Dropping the head of `xs` shifts first positions of other elements by one. */
  lemma ShiftOrder<T>(xs: seq<T>, tail: seq<T>, seen: set<T>)
    requires |xs| > 0 && xs[0] in seen
    requires forall i :: 0 <= i < |tail| ==> tail[i] !in seen
    requires InFirstOccurrenceOrder(xs[1..], tail)
    ensures InFirstOccurrenceOrder(xs, tail)
    ensures forall i :: 0 <= i < |tail| ==> FirstIndex(xs, tail[i]) > 0
  {
    forall i | 0 <= i < |tail|
      ensures tail[i] in xs && FirstIndex(xs, tail[i]) == 1 + FirstIndex(xs[1..], tail[i])
    {
      assert tail[i] != xs[0];
    }
  }

  /** Putting the head of `xs` in front of an ordered tail keeps the order. */
  lemma ConsOrder<T>(xs: seq<T>, tail: seq<T>)
    requires |xs| > 0
    requires InFirstOccurrenceOrder(xs, tail)
    requires forall i :: 0 <= i < |tail| ==> FirstIndex(xs, tail[i]) > 0
    ensures InFirstOccurrenceOrder(xs, [xs[0]] + tail)
  {
    var r := [xs[0]] + tail;
    assert FirstIndex(xs, xs[0]) == 0;
    forall i | 0 <= i < |r|
      ensures r[i] in xs
      ensures i > 0 ==> r[i] == tail[i - 1]
    {
    }
    forall i, j | 0 <= i < j < |r|
      ensures FirstIndex(xs, r[i]) < FirstIndex(xs, r[j])
    {
      var a, b := r[i], r[j];
      assert b == tail[j - 1];
      if i > 0 {
        assert a == tail[i - 1];
        assert FirstIndex(xs, tail[i - 1]) < FirstIndex(xs, tail[j - 1]);
      } else {
        assert FirstIndex(xs, tail[j - 1]) > 0;
      }
    }
  }

  /** The output of `uniqueify` lists the distinct input elements in the
      order of their first occurrences. */
  lemma UniqueifyOrder<T>(xs: seq<T>)
    ensures InFirstOccurrenceOrder(xs, Uniqueify(xs))
  {
    DedupOrder(xs, {});
  }

  /** Dropping the head keeps a sequence duplicate-free and ordered. */
  lemma OrderedTail<T>(xs: seq<T>, r: seq<T>)
    requires |r| > 0 && NoDuplicates(r) && InFirstOccurrenceOrder(xs, r)
    ensures NoDuplicates(r[1..]) && InFirstOccurrenceOrder(xs, r[1..])
    ensures forall x :: x in r[1..] <==> x in r && x != r[0]
  {
    var t := r[1..];
    forall i, j | 0 <= i < j < |t|
      ensures t[i] != t[j] && FirstIndex(xs, t[i]) < FirstIndex(xs, t[j])
    {
      assert t[i] == r[i + 1] && t[j] == r[j + 1];
    }
    forall x
      ensures x in t <==> x in r && x != r[0]
    {
      if x in t {
        var i :| 0 <= i < |t| && t[i] == x;
        assert x == r[i + 1];
      }
      if x in r && x != r[0] {
        var i :| 0 <= i < |r| && r[i] == x;
        assert x == t[i - 1];
      }
    }
  }

  /** Two ordered sequences with the same elements start alike. */
  lemma OrderedHeads<T>(xs: seq<T>, r: seq<T>, r': seq<T>)
    requires |r| > 0 && NoDuplicates(r')
    requires forall x :: x in r <==> x in r'
    requires InFirstOccurrenceOrder(xs, r) && InFirstOccurrenceOrder(xs, r')
    ensures |r'| > 0 && r[0] == r'[0]
  {
    assert r[0] in r' && r'[0] in r;
    var k :| 0 <= k < |r'| && r'[k] == r[0];
    var m :| 0 <= m < |r| && r[m] == r'[0];
    if k > 0 {
      assert false;
    }
  }

  /** Two duplicate-free sequences with the same elements, both in
      first-occurrence order of `xs`, are equal. */
  lemma {:induction false} FirstOccurrenceOrderUnique<T>(xs: seq<T>, r: seq<T>, r': seq<T>)
    requires NoDuplicates(r) && NoDuplicates(r')
    requires forall x :: x in r <==> x in r'
    requires InFirstOccurrenceOrder(xs, r) && InFirstOccurrenceOrder(xs, r')
    ensures r == r'
    decreases |r|
  {
    if |r| > 0 {
      OrderedHeads(xs, r, r');
      OrderedTail(xs, r);
      OrderedTail(xs, r');
      FirstOccurrenceOrderUnique(xs, r[1..], r'[1..]);
      assert r == [r[0]] + r[1..];
      assert r' == [r'[0]] + r'[1..];
    } else if |r'| > 0 {
      OrderedHeads(xs, r', r);
    }
  }

  /** `uniqueify` is characterised by its three properties: any sequence
      without duplicates, holding exactly the input's elements, in
      first-occurrence order, is its output. */
  lemma UniqueifyCharacterised<T>(xs: seq<T>, r: seq<T>)
    requires NoDuplicates(r)
    requires forall x :: x in r <==> x in xs
    requires InFirstOccurrenceOrder(xs, r)
    ensures r == Uniqueify(xs)
  {
    UniqueifyOrder(xs);
    FirstOccurrenceOrderUnique(xs, r, Uniqueify(xs));
  }

  /** A duplicate-free input comes back unchanged. */
  lemma {:induction false} DedupDistinct<T>(xs: seq<T>, seen: set<T>)
    requires NoDuplicates(xs)
    requires forall i :: 0 <= i < |xs| ==> xs[i] !in seen
    ensures Dedup(xs, seen) == xs
    decreases |xs|
  {
    if |xs| > 0 {
      var tail := xs[1..];
      var seen' := seen + {xs[0]};
      forall i, j | 0 <= i < j < |tail|
        ensures tail[i] != tail[j]
      {
        assert tail[i] == xs[i + 1] && tail[j] == xs[j + 1];
      }
      forall i | 0 <= i < |tail|
        ensures tail[i] !in seen'
      {
        assert tail[i] == xs[i + 1];
      }
      DedupDistinct(tail, seen');
      assert Dedup(xs, seen) == [xs[0]] + Dedup(tail, seen');
      assert xs == [xs[0]] + tail;
    }
  }

  lemma UniqueifyDistinct<T>(xs: seq<T>)
    requires NoDuplicates(xs)
    ensures Uniqueify(xs) == xs
  {
    DedupDistinct(xs, {});
  }

  /** Applying `uniqueify` twice is the same as applying it once. */
  lemma UniqueifyIdempotent<T>(xs: seq<T>)
    ensures Uniqueify(Uniqueify(xs)) == Uniqueify(xs)
  {
    UniqueifyDistinct(Uniqueify(xs));
  }

  /** The loop of `uniqueify` as written: a `seen` table and an output list
      appended to in input order. */
  method UniqueifyScan<T(==)>(dupedList: seq<T>) returns (result: seq<T>)
    ensures result == Uniqueify(dupedList)
    ensures NoDuplicates(result)
  {
    var seen: set<T> := {};
    result := [];
    for i := 0 to |dupedList|
      invariant result + Dedup(dupedList[i..], seen) == Uniqueify(dupedList)
    {
      var item := dupedList[i];
      assert dupedList[i..][1..] == dupedList[i + 1..];
      if item in seen {
        continue;
      }
      seen := seen + {item};
      result := result + [item];
    }
    assert dupedList[|dupedList|..] == [];
  }
}

=== FILE: page_loop.dfy ===
/** The loop of a page generator, whatever a page and a request are: the
    first page is given, each page may name the request for the next one
    (`advance`), each request is answered with a page or an exception
    (`load`), and the loop stops when no request is pending. `fuel` bounds
    the number of requests sent; running out of it is reported as
    `OutOfFuel`, never silently cut.

    Besides the loop itself (`Continue`, `Paginate`) this module gives an
    independent description of its runs by index (`Follows`, `IsChain`)
    and proves the two agree. */
module PageLoop {
  import opened Wrappers
  import opened PyJson

  /** How the generator stopped. */
  datatype Stop = Finished | Raised(error: PyError) | OutOfFuel

  /** The pages yielded in order, the requests sent in order, and how the
      generator stopped. */
  datatype Run<P, Q> = Run(pages: seq<P>, requests: seq<Q>, stop: Stop)

  /** The loop holding request `next`, with at most `fuel` requests left to
      send. */
  function Continue<P, Q>(next: Option<Q>, load: Q -> Result<P, PyError>, advance: P -> Option<Q>,
                          fuel: nat): (r: Run<P, Q>)
    ensures next.None? ==> r == Run([], [], Finished)
    ensures |r.requests| <= fuel
    decreases fuel
  {
    match next
    case None => Run([], [], Finished)
    case Some(req) =>
      if fuel == 0 then Run([], [], OutOfFuel)
      else
        match load(req)
        case Err(e) => Run([], [req], Raised(e))
        case Ok(page) =>
          var rest := Continue(advance(page), load, advance, fuel - 1);
          Run([page] + rest.pages, [req] + rest.requests, rest.stop)
  }

  /** The request still to be sent after `pages`, when the loop started
      from `next`. */
  function Pending<P, Q>(next: Option<Q>, advance: P -> Option<Q>, pages: seq<P>): Option<Q>
  {
    if |pages| == 0 then next else advance(pages[|pages| - 1])
  }

  /** `r` is a trace of the loop started from `next` with `fuel` requests
      allowed: request i is the one pending after the first i pages, page i
      answers request i, and the trace ends when no request is pending
      (Finished), when a request fails (Raised, with that request's
      exception), or when all `fuel` requests were sent and one is still
      pending (OutOfFuel). */
  ghost predicate Follows<P, Q>(next: Option<Q>, load: Q -> Result<P, PyError>, advance: P -> Option<Q>,
                                fuel: nat, r: Run<P, Q>)
  {
    && |r.pages| <= |r.requests| <= |r.pages| + 1
    && (forall i {:trigger r.requests[i]} :: 0 <= i < |r.requests| ==>
          && Pending(next, advance, r.pages[..i]) == Some(r.requests[i])
          && (i < |r.pages| ==> load(r.requests[i]) == Ok(r.pages[i])))
    && match r.stop
       case Finished => |r.requests| == |r.pages| <= fuel && Pending(next, advance, r.pages).None?
       case OutOfFuel => |r.requests| == |r.pages| == fuel && Pending(next, advance, r.pages).Some?
       case Raised(e) =>
         && |r.requests| == |r.pages| + 1 <= fuel
         && load(r.requests[|r.pages|]) == Err(e)
  }

  /** After a first page, what is pending is what is pending from the
      request that page names. */
  lemma PendingCons<P, Q>(next: Option<Q>, advance: P -> Option<Q>, page: P, pages: seq<P>)
    ensures Pending(next, advance, [page] + pages) == Pending(advance(page), advance, pages)
  {
    if |pages| > 0 {
      assert ([page] + pages)[|pages|] == pages[|pages| - 1];
    }
  }

  /** A trace extended at the front by one answered request is a trace
      from that request. */
  lemma ConsFollows<P, Q>(req: Q, page: P, load: Q -> Result<P, PyError>, advance: P -> Option<Q>,
                          fuel: nat, rest: Run<P, Q>)
    requires fuel > 0 && load(req) == Ok(page)
    requires Follows(advance(page), load, advance, fuel - 1, rest)
    ensures Follows(Some(req), load, advance, fuel, Run([page] + rest.pages, [req] + rest.requests, rest.stop))
  {
    var r := Run([page] + rest.pages, [req] + rest.requests, rest.stop);
    forall i | 0 <= i < |r.requests|
      ensures Pending(Some(req), advance, r.pages[..i]) == Some(r.requests[i])
      ensures i < |r.pages| ==> load(r.requests[i]) == Ok(r.pages[i])
    {
      if i > 0 {
        assert r.pages[..i] == [page] + rest.pages[..i - 1];
        PendingCons(Some(req), advance, page, rest.pages[..i - 1]);
        assert r.requests[i] == rest.requests[i - 1];
        if i < |r.pages| {
          assert r.pages[i] == rest.pages[i - 1];
        }
      }
    }
    PendingCons(Some(req), advance, page, rest.pages);
    if r.stop.Raised? {
      assert r.requests[|r.pages|] == rest.requests[|rest.pages|];
    }
  }

  /** The tail of a trace whose first request was answered is a trace from
      the request that page names. */
  lemma TailFollows<P, Q>(req: Q, page: P, load: Q -> Result<P, PyError>, advance: P -> Option<Q>,
                          fuel: nat, r: Run<P, Q>)
    requires fuel > 0 && load(req) == Ok(page)
    requires Follows(Some(req), load, advance, fuel, r)
    ensures |r.pages| > 0 && |r.requests| > 0 && r.pages[0] == page && r.requests[0] == req
    ensures Follows(advance(page), load, advance, fuel - 1, Run(r.pages[1..], r.requests[1..], r.stop))
  {
    assert |r.requests| > 0;
    assert r.requests[0] == req by {
      assert r.pages[..0] == [];
    }
    assert |r.pages| > 0;
    var rest := Run(r.pages[1..], r.requests[1..], r.stop);
    forall i | 0 <= i < |rest.requests|
      ensures Pending(advance(page), advance, rest.pages[..i]) == Some(rest.requests[i])
      ensures i < |rest.pages| ==> load(rest.requests[i]) == Ok(rest.pages[i])
    {
      assert r.requests[i + 1] == rest.requests[i];
      assert r.pages[..i + 1] == [page] + rest.pages[..i];
      PendingCons(Some(req), advance, page, rest.pages[..i]);
    }
    assert r.pages == [page] + rest.pages;
    PendingCons(Some(req), advance, page, rest.pages);
    if r.stop.Raised? {
      assert rest.requests[|rest.pages|] == r.requests[|r.pages|];
    }
  }

  /** The loop's run is a trace of it. */
  lemma {:induction false} ContinueFollows<P, Q>(next: Option<Q>, load: Q -> Result<P, PyError>,
                                                 advance: P -> Option<Q>, fuel: nat)
    ensures Follows(next, load, advance, fuel, Continue(next, load, advance, fuel))
    decreases fuel
  {
    match next
    case None =>
    case Some(req) =>
      if fuel > 0 {
        match load(req)
        case Err(e) =>
        case Ok(page) =>
          ContinueFollows(advance(page), load, advance, fuel - 1);
          ConsFollows(req, page, load, advance, fuel, Continue(advance(page), load, advance, fuel - 1));
      }
  }

  /** A trace from no request, from a request with no fuel left, or from
      a request that fails holds no page, and is the loop's run. */
  lemma FollowsNoPage<P, Q>(next: Option<Q>, load: Q -> Result<P, PyError>, advance: P -> Option<Q>,
                            fuel: nat, r: Run<P, Q>)
    requires Follows(next, load, advance, fuel, r)
    requires next.None? || fuel == 0 || load(next.value).Err?
    ensures r == Continue(next, load, advance, fuel)
  {
    assert r.pages[..0] == [];
    if |r.requests| > 0 {
      assert r.requests == [r.requests[0]] + r.requests[1..];
    }
  }

  /** A trace whose first request was answered and whose tail is the
      loop's run from the next request is the loop's run. */
  lemma FollowsStep<P, Q>(req: Q, page: P, load: Q -> Result<P, PyError>, advance: P -> Option<Q>,
                          fuel: nat, r: Run<P, Q>)
    requires fuel > 0 && load(req) == Ok(page)
    requires |r.pages| > 0 && |r.requests| > 0 && r.pages[0] == page && r.requests[0] == req
    requires Run(r.pages[1..], r.requests[1..], r.stop) == Continue(advance(page), load, advance, fuel - 1)
    ensures r == Continue(Some(req), load, advance, fuel)
  {
    assert r.pages == [page] + r.pages[1..];
    assert r.requests == [req] + r.requests[1..];
  }

  /** A trace of the loop is its run: the loop is the only way to satisfy
      the trace conditions. */
  lemma {:induction false} FollowsUnique<P, Q>(next: Option<Q>, load: Q -> Result<P, PyError>,
                                               advance: P -> Option<Q>, fuel: nat, r: Run<P, Q>)
    requires Follows(next, load, advance, fuel, r)
    ensures r == Continue(next, load, advance, fuel)
    decreases fuel
  {
    if next.None? || fuel == 0 || load(next.value).Err? {
      FollowsNoPage(next, load, advance, fuel, r);
    } else {
      var req := next.value;
      var page := load(req).value;
      TailFollows(req, page, load, advance, fuel, r);
      FollowsUnique(advance(page), load, advance, fuel - 1, Run(r.pages[1..], r.requests[1..], r.stop));
      FollowsStep(req, page, load, advance, fuel, r);
    }
  }

  /** The loop's run is characterised by the trace conditions. */
  lemma ContinueCharacterised<P, Q>(next: Option<Q>, load: Q -> Result<P, PyError>,
                                    advance: P -> Option<Q>, fuel: nat, r: Run<P, Q>)
    ensures Continue(next, load, advance, fuel) == r <==> Follows(next, load, advance, fuel, r)
  {
    ContinueFollows(next, load, advance, fuel);
    if Follows(next, load, advance, fuel, r) {
      FollowsUnique(next, load, advance, fuel, r);
    }
  }

  /** A run that ended without exhausting its fuel is the same with more
      fuel. */
  lemma ContinueFuel<P, Q>(next: Option<Q>, load: Q -> Result<P, PyError>, advance: P -> Option<Q>,
                           fuel: nat, more: nat)
    requires fuel <= more
    requires !Continue(next, load, advance, fuel).stop.OutOfFuel?
    ensures Continue(next, load, advance, more) == Continue(next, load, advance, fuel)
  {
    var r := Continue(next, load, advance, fuel);
    ContinueFollows(next, load, advance, fuel);
    assert Follows(next, load, advance, more, r);
    FollowsUnique(next, load, advance, more, r);
  }

  /** The generator: the first page (or the exception raised getting it),
      then the loop from the request it names. */
  function Paginate<P, Q>(first: Result<P, PyError>, load: Q -> Result<P, PyError>, advance: P -> Option<Q>,
                          fuel: nat): (r: Run<P, Q>)
    ensures first.Err? ==> r == Run([], [], Raised(first.error))
    ensures first.Ok? ==> |r.pages| > 0 && r.pages[0] == first.value
  {
    match first
    case Err(e) => Run([], [], Raised(e))
    case Ok(p) =>
      var rest := Continue(advance(p), load, advance, fuel);
      Run([p] + rest.pages, rest.requests, rest.stop)
  }

  /** `pages` and `requests` form a finished chain: each page but the last
      names a request, that request is answered by the next page, and the
      last page names none. */
  ghost predicate IsChain<P, Q>(pages: seq<P>, requests: seq<Q>, load: Q -> Result<P, PyError>,
                                advance: P -> Option<Q>)
  {
    && |pages| == |requests| + 1
    && (forall i :: 0 <= i < |requests| ==>
          && advance(pages[i]) == Some(requests[i])
          && load(requests[i]) == Ok(pages[i + 1]))
    && advance(pages[|pages| - 1]).None?
  }

  /** A finished loop run from the request the first page names, with the
      first page in front, is a chain. */
  lemma ChainOfRun<P, Q>(p: P, load: Q -> Result<P, PyError>, advance: P -> Option<Q>, fuel: nat)
    requires Continue(advance(p), load, advance, fuel).stop.Finished?
    ensures var rest := Continue(advance(p), load, advance, fuel);
      IsChain([p] + rest.pages, rest.requests, load, advance)
  {
    var rest := Continue(advance(p), load, advance, fuel);
    var pages := [p] + rest.pages;
    ContinueFollows(advance(p), load, advance, fuel);
    forall i | 0 <= i < |rest.requests|
      ensures advance(pages[i]) == Some(rest.requests[i])
      ensures load(rest.requests[i]) == Ok(pages[i + 1])
    {
      assert pages[..i + 1] == [p] + rest.pages[..i];
      PendingCons(advance(p), advance, p, rest.pages[..i]);
      assert pages[i] == pages[..i + 1][i];
    }
    PendingCons(advance(p), advance, p, rest.pages);
  }

  /** Request `i` of a chain is the one pending after the pages before
      page `i + 1`, and it loads that page. */
  lemma ChainStep<P, Q>(pages: seq<P>, requests: seq<Q>, load: Q -> Result<P, PyError>,
                        advance: P -> Option<Q>, i: nat)
    requires IsChain(pages, requests, load, advance) && i < |requests|
    ensures Pending(advance(pages[0]), advance, pages[1..][..i]) == Some(requests[i])
    ensures load(requests[i]) == Ok(pages[1..][i])
  {
    var rest := pages[1..];
    assert advance(pages[i]) == Some(requests[i]) && load(requests[i]) == Ok(pages[i + 1]);
    assert pages[..i + 1] == [pages[0]] + rest[..i];
    PendingCons(advance(pages[0]), advance, pages[0], rest[..i]);
    assert pages[..i + 1][i] == pages[i];
    assert rest[i] == pages[i + 1];
  }

  /** The tail of a chain within the fuel is a finished trace from the
      request its first page names. */
  lemma RunOfChain<P, Q>(pages: seq<P>, requests: seq<Q>, load: Q -> Result<P, PyError>,
                         advance: P -> Option<Q>, fuel: nat)
    requires IsChain(pages, requests, load, advance) && |requests| <= fuel
    ensures Follows(advance(pages[0]), load, advance, fuel, Run(pages[1..], requests, Finished))
  {
    var tail := Run(pages[1..], requests, Finished);
    forall i | 0 <= i < |requests|
      ensures Pending(advance(pages[0]), advance, tail.pages[..i]) == Some(requests[i])
      ensures i < |tail.pages| ==> load(requests[i]) == Ok(tail.pages[i])
    {
      ChainStep(pages, requests, load, advance, i);
    }
    assert pages == [pages[0]] + tail.pages;
    PendingCons(advance(pages[0]), advance, pages[0], tail.pages);
  }

  /** The generator finishes exactly along a chain: it finishes with pages
      `pages` after requests `requests` if and only if the first page is
      `pages[0]`, the pages and requests form a chain, and the fuel covers
      its requests. So a chain of k requests costs k loads and yields
      k + 1 pages, whatever the fuel beyond k. */
  lemma TokenChain<P, Q>(first: Result<P, PyError>, load: Q -> Result<P, PyError>, advance: P -> Option<Q>,
                         fuel: nat, pages: seq<P>, requests: seq<Q>)
    ensures Paginate(first, load, advance, fuel) == Run(pages, requests, Finished)
            <==>
            (&& |pages| > 0 && first == Ok(pages[0])
             && IsChain(pages, requests, load, advance)
             && |requests| <= fuel)
  {
    if first.Ok? {
      var p := first.value;
      var rest := Continue(advance(p), load, advance, fuel);
      if Paginate(first, load, advance, fuel) == Run(pages, requests, Finished) {
        ChainOfRun(p, load, advance, fuel);
        assert pages == [p] + rest.pages;
      }
      if |pages| > 0 && first == Ok(pages[0]) && IsChain(pages, requests, load, advance) && |requests| <= fuel {
        RunOfChain(pages, requests, load, advance, fuel);
        FollowsUnique(advance(p), load, advance, fuel, Run(pages[1..], requests, Finished));
        assert pages == [p] + pages[1..];
      }
    }
  }

  /** However the generator stops, it yielded one page more than it sent
      requests when it finished or ran out of fuel, and as many pages as
      requests when a request failed. */
  lemma PaginateCounts<P, Q>(first: Result<P, PyError>, load: Q -> Result<P, PyError>,
                             advance: P -> Option<Q>, fuel: nat)
    ensures var r := Paginate(first, load, advance, fuel);
      && |r.requests| <= fuel
      && (first.Ok? ==>
            (if r.stop.Raised? then |r.pages| == |r.requests| else |r.pages| == |r.requests| + 1))
      && (r.stop.OutOfFuel? ==> |r.requests| == fuel)
  {
    if first.Ok? {
      ContinueFollows(advance(first.value), load, advance, fuel);
    }
  }
}

=== FILE: pagination.dfy ===
/** The page generator of a playlist and the loop that drains it: the
    first page comes from the playlist page's embedded data, then one
    continuation request is sent per truthy token, each answer parsed into
    the next page, until a page carries no truthy token. The video list is
    the pages' entries concatenated in the order they were yielded.

    The loop is stated over a `Loader`, which answers a continuation
    request with a parsed page; `PageLoader` builds the loader the playlist
    uses from the network call (`Fetcher`), `json.loads` (`Decoder`) and the
    page parser. `fuel` bounds the number of continuation requests; running
    out of it is reported, never silently cut. */
module Pagination {
  import opened Wrappers
  import opened PyJson
  import opened PlaylistPage
  import opened PageLoop

  /** A run of the playlist's generator: its pages and continuation
      requests. */
  type PlaylistTrace = Run<Page, Request>

  /** `json.loads`: a JSON value, or `DecodeError`. */
  type Decoder = string -> Result<Json, PyError>

  /** One continuation request sent over the network: the response body,
      or the exception the call raised. */
  type Fetcher = Request -> Result<string, PyError>

  /** A continuation request answered with the page parsed from the
      response, or the exception raised on the way. */
  type Loader = Request -> Result<Page, PyError>

  /** The call `request.get(load_more_url, extra_headers=headers)` as the
      generator makes it. `request.get` takes the URL as its only
      parameter, so Python rejects the unexpected keyword with TypeError
      before anything is sent. */
  function GetWithExtraHeaders(req: Request): Result<string, PyError>
  {
    Err(TypeError)
  }

  /** The loop condition `load_more_url and headers` for the request the
      generator holds. */
  predicate LoopGuard(next: Option<Request>)
  {
    next.Some? && |next.value.url| > 0 && |next.value.headers| > 0
  }

  /** The request built from a page's token: only a truthy token builds
      one, from its `str()`, and the loop runs exactly when one was built. */
  function NextRequest(token: Option<Json>): (r: Option<Request>)
    ensures r.Some? <==> token.Some? && Truthy(token.value)
    ensures LoopGuard(r) <==> r.Some?
    ensures r.Some? ==> r.value == BuildContinuationUrl(Format(token.value))
  {
    match token
    case Some(t) => if Truthy(t) then Some(BuildContinuationUrl(Format(t))) else None
    case None => None
  }

  /** `None`, `""`, `0`, `False`, `[]` and `{}` end the pagination. */
  lemma FalsyTokenStops(token: Json)
    ensures !Truthy(token) ==> NextRequest(Some(token)).None?
    ensures NextRequest(Some(Str(""))).None? && NextRequest(None).None?
    ensures NextRequest(Some(Str("a"))) == Some(BuildContinuationUrl("a"))
  {
  }

  /** The first page: the captured `ytInitialData` assignment without its
      `;`, decoded, then parsed. */
  function FirstPage(captured: Option<string>, decode: Decoder): (r: Result<Page, PyError>)
    ensures captured.None? ==> r == Err(AttributeError)
  {
    var raw :- ExtractJson(captured);
    var data :- decode(raw);
    ExtractVideos(data)
  }

  /** One continuation page: the request sent, the body decoded, then
      parsed. */
  function LoadPage(req: Request, fetch: Fetcher, decode: Decoder): (r: Result<Page, PyError>)
    ensures fetch(req).Err? ==> r == Err(fetch(req).error)
  {
    var body :- fetch(req);
    var data :- decode(body);
    ExtractVideos(data)
  }

  function PageLoader(fetch: Fetcher, decode: Decoder): Loader
  {
    req => LoadPage(req, fetch, decode)
  }

  /** The request a page's token builds. */
  function Advance(page: Page): Option<Request>
  {
    NextRequest(page.continuation)
  }

  /** The generator of a playlist: the first page from the captured
      initial data, the continuation pages from the network. */
  function PlaylistRun(captured: Option<string>, decode: Decoder, fetch: Fetcher, fuel: nat): PlaylistTrace
  {
    Paginate(FirstPage(captured, decode), PageLoader(fetch, decode), Advance, fuel)
  }

  /** All entries of a sequence of pages, in page order. */
  function Flatten(pages: seq<Page>): seq<Entry>
  {
    if |pages| == 0 then [] else pages[0].entries + Flatten(pages[1..])
  }

  /** Number of entries over all pages. */
  function EntryCount(pages: seq<Page>): nat
  {
    if |pages| == 0 then 0 else |pages[0].entries| + EntryCount(pages[1..])
  }

  /** The flattened list is as long as all pages together, and the entries
      of page `i` sit in it right after those of the pages before it,
      unchanged and in order. */
  lemma {:induction false} FlattenLayout(pages: seq<Page>, i: nat, j: nat)
    ensures |Flatten(pages)| == EntryCount(pages)
    ensures i < |pages| && j < |pages[i].entries| ==>
      && EntryCount(pages[..i]) + j < |Flatten(pages)|
      && Flatten(pages)[EntryCount(pages[..i]) + j] == pages[i].entries[j]
  {
    if |pages| > 0 {
      FlattenLayout(pages[1..], if i > 0 then i - 1 else 0, j);
      if i > 0 && i < |pages| {
        assert pages[..i][1..] == pages[1..][..i - 1];
        assert pages[1..][i - 1] == pages[i];
      }
    }
  }

  /** Joining two runs of pages joins their entries. */
  lemma {:induction false} FlattenAppend(a: seq<Page>, b: seq<Page>)
    ensures Flatten(a + b) == Flatten(a) + Flatten(b)
  {
    if |a| > 0 {
      assert (a + b)[1..] == a[1..] + b;
      FlattenAppend(a[1..], b);
    } else {
      assert a + b == b;
    }
  }

  /** Two pages carrying the same entry contribute it twice: entries are
      not deduplicated across pages. */
  lemma NoCrossPageDedup(load: Loader, fuel: nat, e: Entry, token: Json)
    requires Truthy(token) && fuel >= 1
    requires load(BuildContinuationUrl(Format(token))) == Ok(Page([e], None))
    ensures Paginate(Ok(Page([e], Some(token))), load, Advance, fuel).stop == Finished
    ensures Flatten(Paginate(Ok(Page([e], Some(token))), load, Advance, fuel).pages) == [e, e]
  {
    var pages := [Page([e], Some(token)), Page([e], None)];
    var requests := [BuildContinuationUrl(Format(token))];
    TokenChain(Ok(pages[0]), load, Advance, fuel, pages, requests);
    assert Flatten(pages[1..]) == [e];
  }

  /** As written, every continuation request raises TypeError: a playlist
      whose first page carries a truthy token fails right after that page,
      and only a playlist of one page finishes. */
  lemma ContinuationFetchRaises(captured: Option<string>, decode: Decoder, fuel: nat)
    requires FirstPage(captured, decode).Ok?
    ensures var p := FirstPage(captured, decode).value;
      var r := PlaylistRun(captured, decode, GetWithExtraHeaders, fuel);
      && (NextRequest(p.continuation).Some? && fuel > 0 ==>
            r == Run([p], [NextRequest(p.continuation).value], Raised(TypeError)))
      && (NextRequest(p.continuation).None? ==> r == Run([p], [], Finished))
      && (r.stop.Finished? ==> |r.requests| == 0)
  {
    var p := FirstPage(captured, decode).value;
    var load := PageLoader(GetWithExtraHeaders, decode);
    if NextRequest(p.continuation).Some? {
      assert load(NextRequest(p.continuation).value) == Err(TypeError);
    }
  }

  /** One turn of the loop: a page loaded for the pending request puts its
      entries in front of those of the rest of the run. */
  lemma LoopStep(req: Request, load: Loader, left: nat)
    requires left > 0 && load(req).Ok?
    ensures var page := load(req).value;
      var run := Continue(Some(req), load, Advance, left);
      var rest := Continue(Advance(page), load, Advance, left - 1);
      && run.stop == rest.stop
      && Flatten(run.pages) == page.entries + Flatten(rest.pages)
  {
    var page := load(req).value;
    var rest := Continue(Advance(page), load, Advance, left - 1);
    assert ([page] + rest.pages)[1..] == rest.pages;
  }

  /** `_fill_video_urls` draining the generator: the imperative loop
      appends each page's entries as it arrives. On an exception the
      entries collected so far are what it holds. */
  method FillVideoUrls(first: Result<Page, PyError>, load: Loader, fuel: nat)
    returns (videoUrls: seq<Entry>, stop: Stop)
    ensures stop == Paginate(first, load, Advance, fuel).stop
    ensures videoUrls == Flatten(Paginate(first, load, Advance, fuel).pages)
  {
    ghost var run := Paginate(first, load, Advance, fuel);
    if first.Err? {
      return [], Raised(first.error);
    }
    videoUrls := first.value.entries;
    var next := NextRequest(first.value.continuation);
    var left := fuel;
    assert run.pages == [first.value] + Continue(next, load, Advance, left).pages;
    while LoopGuard(next)
      invariant videoUrls + Flatten(Continue(next, load, Advance, left).pages) == Flatten(run.pages)
      invariant Continue(next, load, Advance, left).stop == run.stop
      invariant LoopGuard(next) <==> next.Some?
      decreases left
    {
      if left == 0 {
        return videoUrls, OutOfFuel;
      }
      var page := load(next.value);
      if page.Err? {
        return videoUrls, Raised(page.error);
      }
      LoopStep(next.value, load, left);
      ghost var rest := Continue(Advance(page.value), load, Advance, left - 1).pages;
      assert videoUrls + Flatten(Continue(next, load, Advance, left).pages)
          == (videoUrls + page.value.entries) + Flatten(rest);
      videoUrls := videoUrls + page.value.entries;
      next := Advance(page.value);
      left := left - 1;
    }
    stop := Finished;
  }
}

=== FILE: playlist.dfy ===
/** The playlist object: building it from a URL or a bare id, the video
    list it holds after pagination, indexing and length, the title taken
    from the page's `<title>`, and the numbered file-name prefixes. */
module Playlist {
  import opened Wrappers
  import opened PyJson
  import opened PlaylistPage
  import opened Pagination
  import opened PageLoop
  import Text
  import Helpers

  /** `s.split(c, 1)` for a string that contains `c`: the text before the
      first `c` and the text after it. */
  function SplitOnce(s: string, c: char): (r: Option<(string, string)>)
    ensures r.None? <==> c !in s
    ensures r.Some? ==> s == r.value.0 + [c] + r.value.1 && c !in r.value.0
  {
    if |s| == 0 then None
    else if s[0] == c then Some(("", s[1..]))
    else
      match SplitOnce(s[1..], c)
      case None => None
      case Some(p) => Some(([s[0]] + p.0, p.1))
  }

  /** `s.replace("+", " ")`. */
  function PlusToSpace(s: string): (r: string)
    ensures |r| == |s|
    ensures forall k :: 0 <= k < |s| ==> r[k] == if s[k] == '+' then ' ' else s[k]
  {
    if |s| == 0 then "" else [if s[0] == '+' then ' ' else s[0]] + PlusToSpace(s[1..])
  }

  /** The fields of a query string: split on `&`, each piece split on `;`.
      Older `parse_qs` accepts both separators; the CVE-2021-23336 security
      releases (3.6.13, 3.7.10, 3.8.8, 3.9.2) split on `&` only. */
  function QueryFields(qs: string): seq<string>
  {
    FieldsOf(Text.Split(qs, '&'))
  }

  function FieldsOf(parts: seq<string>): seq<string>
  {
    if |parts| == 0 then [] else Text.Split(parts[0], ';') + FieldsOf(parts[1..])
  }

  /** `parse_qsl` with blank values dropped: a field without `=` or with
      nothing after its first `=` is skipped; in the others `+` stands for
      a space. */
  function QueryPairs(fields: seq<string>): (r: seq<(string, string)>)
    ensures |r| <= |fields|
    ensures forall k :: 0 <= k < |r| ==> |r[k].1| > 0
  {
    if |fields| == 0 then []
    else
      var rest := QueryPairs(fields[1..]);
      match SplitOnce(fields[0], '=')
      case None => rest
      case Some(nv) =>
        if |nv.1| == 0 then rest else [(PlusToSpace(nv.0), PlusToSpace(nv.1))] + rest
  }

  /** Position of the first pair named `name`, or `|pairs|` if there is none. */
  function FirstNamed(pairs: seq<(string, string)>, name: string): (k: nat)
    ensures k <= |pairs|
    ensures forall j :: 0 <= j < k ==> pairs[j].0 != name
    ensures k < |pairs| ==> pairs[k].0 == name
  {
    if |pairs| == 0 then 0
    else if pairs[0].0 == name then 0
    else 1 + FirstNamed(pairs[1..], name)
  }

  /** `parse_qs(qs)[name][0]`: the first value given to `name`; a name with
      no (non-blank) value is missing from the dict, hence KeyError. */
  function QueryValue(qs: string, name: string): (r: Result<string, PyError>)
    ensures var pairs := QueryPairs(QueryFields(qs));
      var k := FirstNamed(pairs, name);
      && (r.Ok? <==> k < |pairs|)
      && (r.Ok? ==> r.value == pairs[k].1 && |r.value| > 0)
      && (r.Err? ==> r.error == KeyError)
  {
    var pairs := QueryPairs(QueryFields(qs));
    var k := FirstNamed(pairs, name);
    if k < |pairs| then Ok(pairs[k].1) else Err(KeyError)
  }

  /** The id parsing in `create`: the first `list` value of the query part
      (the text between the first and the second `?`). A URL without `?`
      fails the `[1]` subscript, and that IndexError makes the URL itself
      the id; a query without `list` raises KeyError, which is not caught. */
  function ParsePlaylistId(url: string): (r: Result<string, PyError>)
    ensures r.Err? ==> r.error == KeyError
  {
    var parts := Text.Split(url, '?');
    if |parts| < 2 then Ok(url)
    else QueryValue(parts[1], "list")
  }

  const PlaylistPath := "https://www.youtube.com/playlist"

  /** The playlist page of an id. */
  function PlaylistUrl(id: string): string
  {
    PlaylistPath + "?list=" + id
  }

  /** No character other than a space appears in a parsed value unless it
      appears in the fields. */
  lemma {:induction false} PairsLack(fields: seq<string>, x: char)
    requires x != ' '
    requires forall j :: 0 <= j < |fields| ==> x !in fields[j]
    ensures forall k :: 0 <= k < |QueryPairs(fields)| ==> x !in QueryPairs(fields)[k].1
  {
    if |fields| > 0 {
      PairsLack(fields[1..], x);
      match SplitOnce(fields[0], '=')
      case None =>
      case Some(nv) =>
        assert x !in nv.1;
        var v := PlusToSpace(nv.1);
        forall k | 0 <= k < |v|
          ensures v[k] != x
        {
          assert nv.1[k] in nv.1;
        }
    }
  }

  /** No character missing from the query string appears in its fields. */
  lemma {:induction false} FieldsLack(parts: seq<string>, x: char)
    requires forall j :: 0 <= j < |parts| ==> x !in parts[j]
    ensures forall j :: 0 <= j < |FieldsOf(parts)| ==> x !in FieldsOf(parts)[j]
  {
    if |parts| > 0 {
      FieldsLack(parts[1..], x);
      var here := Text.Split(parts[0], ';');
      forall i | 0 <= i < |here|
        ensures x !in here[i]
      {
        if x in here[i] {
          Text.SplitPiecesFrom(parts[0], ';', i, x);
        }
      }
      assert FieldsOf(parts) == here + FieldsOf(parts[1..]);
    }
  }

  /** A bare id is taken as it is, and an id parsed out of a URL without
      percent-escapes never contains `?`; the result is the input exactly
      when the input has no `?`. */
  lemma PlaylistIdOfBareId(url: string)
    ensures '?' !in url ==> ParsePlaylistId(url) == Ok(url)
    ensures '?' in url && '%' !in url && ParsePlaylistId(url).Ok? ==> '?' !in ParsePlaylistId(url).value
    ensures ParsePlaylistId(url) == Ok(url) <==> '?' !in url
  {
    var parts := Text.Split(url, '?');
    if '?' !in url {
      Text.SplitPlain(url, '?');
    } else {
      assert Text.Count(url, '?') > 0 by {
        CountPositive(url, '?');
      }
      var qs := parts[1];
      var pieces := Text.Split(qs, '&');
      forall j | 0 <= j < |pieces|
        ensures '?' !in pieces[j]
      {
        if '?' in pieces[j] {
          Text.SplitPiecesFrom(qs, '&', j, '?');
        }
      }
      FieldsLack(pieces, '?');
      PairsLack(QueryFields(qs), '?');
    }
  }

  lemma {:induction false} CountPositive(s: string, c: char)
    requires c in s
    ensures Text.Count(s, c) > 0
  {
    if s[0] != c {
      CountPositive(s[1..], c);
    }
  }

  /** A field without either separator is a query of its own. */
  lemma SingleField(f: string)
    requires '&' !in f && ';' !in f
    ensures QueryFields(f) == [f]
  {
    Text.SplitPlain(f, '&');
    Text.SplitPlain(f, ';');
    assert FieldsOf([f]) == Text.Split(f, ';') + FieldsOf([]);
  }

  /** Two separator-free fields joined by `&` are read as those two fields. */
  lemma TwoFields(f: string, g: string)
    requires '&' !in f && ';' !in f && '&' !in g && ';' !in g
    ensures QueryFields(f + "&" + g) == [f, g]
  {
    Text.SplitPrefix(f, g, '&');
    assert f + "&" + g == f + ['&'] + g;
    Text.SplitPlain(g, '&');
    Text.SplitPlain(f, ';');
    Text.SplitPlain(g, ';');
    assert FieldsOf([f, g]) == Text.Split(f, ';') + FieldsOf([g]);
    assert FieldsOf([g]) == Text.Split(g, ';') + FieldsOf([]);
  }

  /** A field `name=value` with `=` absent from the name splits at that `=`. */
  lemma {:induction false} NamedField(name: string, value: string)
    requires '=' !in name
    ensures SplitOnce(name + "=" + value, '=') == Some((name, value))
  {
    var s := name + "=" + value;
    if |name| == 0 {
      assert s[1..] == value;
    } else {
      assert s[1..] == name[1..] + "=" + value;
      NamedField(name[1..], value);
      assert [s[0]] + name[1..] == name;
    }
  }

  lemma PlusFree(s: string)
    requires '+' !in s
    ensures PlusToSpace(s) == s
  {
  }

  /** Parsing the pairs of several fields parses each field in turn. */
  lemma {:induction false} QueryPairsAppend(a: seq<string>, b: seq<string>)
    ensures QueryPairs(a + b) == QueryPairs(a) + QueryPairs(b)
  {
    if |a| > 0 {
      assert (a + b)[1..] == a[1..] + b;
      QueryPairsAppend(a[1..], b);
    } else {
      assert a + b == b;
    }
  }

  /** A field `name=value` is the pair of its name and value, each with
      `+` read as a space, or nothing when the value is blank. */
  lemma FieldPair(name: string, value: string)
    requires '=' !in name
    ensures QueryPairs([name + "=" + value]) ==
      if |value| > 0 then [(PlusToSpace(name), PlusToSpace(value))] else []
  {
    NamedField(name, value);
  }

  /** A field without `=` yields no pair. */
  lemma NoValueField(f: string)
    requires '=' !in f
    ensures QueryPairs([f]) == []
  {
  }

  /** The field `list=<v>` is the pair `("list", v)`, or nothing when `v`
      is blank. */
  lemma ListField(v: string)
    requires '+' !in v
    ensures QueryPairs(["list=" + v]) == if |v| > 0 then [("list", v)] else []
  {
    assert "list=" + v == "list" + "=" + v;
    NamedField("list", v);
    PlusFree("list");
    PlusFree(v);
  }

  /** The id parsed from a URL with one `?` is the `list` value of the
      text after it. */
  lemma IdFromQuery(front: string, query: string)
    requires '?' !in front && '?' !in query
    ensures ParsePlaylistId(front + "?" + query) == QueryValue(query, "list")
  {
    assert front + "?" + query == front + ['?'] + query;
    Text.SplitPrefix(front, query, '?');
    Text.SplitPlain(query, '?');
  }

  /** The playlist URL of an id gives the id back, as long as the id holds
      none of the characters the query parser treats specially; a blank id
      is dropped by the parser, so its URL raises KeyError. */
  lemma PlaylistUrlRoundTrip(id: string)
    requires '?' !in id && '&' !in id && ';' !in id && '+' !in id && '%' !in id
    ensures ParsePlaylistId(PlaylistUrl(id)) == if |id| > 0 then Ok(id) else Err(KeyError)
  {
    var query := "list=" + id;
    assert PlaylistUrl(id) == PlaylistPath + "?" + query;
    assert '?' !in PlaylistPath;
    IdFromQuery(PlaylistPath, query);
    SingleField(query);
    ListField(id);
  }

  /** The query `list=<first>&list=<second>` parses to `("list", first)`
      followed by whatever the second field gives. */
  lemma TwoListPairs(first: string, second: string)
    requires |first| > 0
    requires '&' !in first && ';' !in first && '+' !in first
    requires '&' !in second && ';' !in second
    ensures QueryPairs(QueryFields(("list=" + first) + "&" + ("list=" + second)))
            == [("list", first)] + QueryPairs(["list=" + second])
  {
    var f := "list=" + first;
    var g := "list=" + second;
    assert '&' !in f && ';' !in f && '&' !in g && ';' !in g;
    TwoFields(f, g);
    QueryPairsAppend([f], [g]);
    assert [f, g] == [f] + [g];
    ListField(first);
  }

  /** When `list` is given twice the first value wins. */
  lemma FirstListValueWins(front: string, first: string, second: string)
    requires '?' !in front
    requires |first| > 0
    requires '?' !in first && '&' !in first && ';' !in first && '+' !in first && '%' !in first
    requires '?' !in second && '&' !in second && ';' !in second && '+' !in second
    ensures ParsePlaylistId(front + "?list=" + first + "&list=" + second) == Ok(first)
  {
    var query := ("list=" + first) + "&" + ("list=" + second);
    assert front + "?list=" + first + "&list=" + second == front + "?" + query;
    IdFromQuery(front, query);
    TwoListPairs(first, second);
    assert FirstNamed(QueryPairs(QueryFields(query)), "list") == 0;
  }

  /** A built playlist: its id, its URL and the entries of all its pages. */
  datatype Playlist = Playlist(playlistId: string, playlistUrl: string, videoUrls: seq<Entry>)

  /** What `create` ends with: a playlist, the exception it raised, or a
      token chain longer than the fuel. */
  datatype Created = Built(playlist: Playlist) | Failed(error: PyError) | Unfinished

  /** `Playlist.create`: parse the id, GET the playlist page (`get`), take
      the `ytInitialData` capture out of it (`search`), then drain the page
      generator into the video list. */
  function Create(url: string, get: string -> Result<string, PyError>, search: string -> Option<string>,
                  decode: Decoder, fetch: Fetcher, fuel: nat): (r: Created)
    ensures ParsePlaylistId(url).Err? ==> r == Failed(ParsePlaylistId(url).error)
    ensures r.Built? ==>
      && ParsePlaylistId(url) == Ok(r.playlist.playlistId)
      && r.playlist.playlistUrl == PlaylistUrl(r.playlist.playlistId)
      && get(r.playlist.playlistUrl).Ok?
    ensures ParsePlaylistId(url).Ok? && get(PlaylistUrl(ParsePlaylistId(url).value)).Err? ==>
      r == Failed(get(PlaylistUrl(ParsePlaylistId(url).value)).error)
  {
    match ParsePlaylistId(url)
    case Err(e) => Failed(e)
    case Ok(id) =>
      match get(PlaylistUrl(id))
      case Err(e) => Failed(e)
      case Ok(html) =>
        var run := PlaylistRun(search(html), decode, fetch, fuel);
        match run.stop
        case Finished => Built(Playlist(id, PlaylistUrl(id), Flatten(run.pages)))
        case Raised(e) => Failed(e)
        case OutOfFuel => Unfinished
  }

  /** With a continuation call that sends its headers, a playlist whose
      pages form a token chain is built with the entries of all pages in
      order, however much fuel beyond the chain's length is given, and its
      length is the sum of the page lengths. */
  lemma CreateAlongChain(url: string, get: string -> Result<string, PyError>, search: string -> Option<string>,
                         decode: Decoder, fetch: Fetcher, fuel: nat,
                         id: string, html: string, pages: seq<Page>, requests: seq<Request>)
    ensures && ParsePlaylistId(url) == Ok(id)
            && get(PlaylistUrl(id)) == Ok(html)
            && |pages| > 0 && FirstPage(search(html), decode) == Ok(pages[0])
            && IsChain(pages, requests, PageLoader(fetch, decode), Advance)
            && |requests| <= fuel
            ==> Create(url, get, search, decode, fetch, fuel) == Built(Playlist(id, PlaylistUrl(id), Flatten(pages)))
    ensures Len(Playlist(id, PlaylistUrl(id), Flatten(pages))) == EntryCount(pages)
  {
    if |pages| > 0 && FirstPage(search(html), decode) == Ok(pages[0]) {
      TokenChain(FirstPage(search(html), decode), PageLoader(fetch, decode), Advance, fuel, pages, requests);
    }
    FlattenLayout(pages, 0, 0);
  }

  /** Conversely, a built playlist holds the entries of a token chain that
      starts with the first page of its own page and fits in the fuel. */
  lemma CreateBuiltIsChain(url: string, get: string -> Result<string, PyError>, search: string -> Option<string>,
                           decode: Decoder, fetch: Fetcher, fuel: nat)
    ensures var r := Create(url, get, search, decode, fetch, fuel);
      r.Built? ==>
        exists pages: seq<Page>, requests: seq<Request> ::
          && |pages| > 0
          && FirstPage(search(get(r.playlist.playlistUrl).value), decode) == Ok(pages[0])
          && IsChain(pages, requests, PageLoader(fetch, decode), Advance)
          && |requests| <= fuel
          && r.playlist.videoUrls == Flatten(pages)
  {
    var r := Create(url, get, search, decode, fetch, fuel);
    if r.Built? {
      var html := get(r.playlist.playlistUrl).value;
      var run := PlaylistRun(search(html), decode, fetch, fuel);
      TokenChain(FirstPage(search(html), decode), PageLoader(fetch, decode), Advance, fuel, run.pages, run.requests);
    }
  }

  /** An exception raised by the page generator, after the id parsed and
      the playlist page was fetched, is the exception `create` raises. */
  lemma CreateRaisedFails(url: string, get: string -> Result<string, PyError>, search: string -> Option<string>,
                          decode: Decoder, fetch: Fetcher, fuel: nat, id: string, html: string, e: PyError)
    ensures && ParsePlaylistId(url) == Ok(id)
            && get(PlaylistUrl(id)) == Ok(html)
            && PlaylistRun(search(html), decode, fetch, fuel).stop == Raised(e)
            ==> Create(url, get, search, decode, fetch, fuel) == Failed(e)
  {
  }

  /** As written, `create` fails with TypeError for every playlist whose
      first page carries a truthy token. */
  lemma CreateMultiPageRaises(url: string, get: string -> Result<string, PyError>, search: string -> Option<string>,
                              decode: Decoder, fuel: nat, id: string, html: string)
    ensures && ParsePlaylistId(url) == Ok(id)
            && get(PlaylistUrl(id)) == Ok(html)
            && FirstPage(search(html), decode).Ok?
            && NextRequest(FirstPage(search(html), decode).value.continuation).Some?
            && fuel > 0
            ==> Create(url, get, search, decode, GetWithExtraHeaders, fuel) == Failed(TypeError)
  {
    if FirstPage(search(html), decode).Ok? {
      ContinuationFetchRaises(search(html), decode, fuel);
    }
  }

  /** `len(playlist)`. */
  function Len(p: Playlist): nat
  {
    |p.videoUrls|
  }

  /** `playlist[i]` for an integer: negative indices count from the end;
      anything outside `-len .. len - 1` raises IndexError. */
  function GetItem(p: Playlist, i: int): (r: Result<Entry, PyError>)
    ensures r.Ok? <==> -(Len(p) as int) <= i < Len(p)
    ensures 0 <= i < Len(p) ==> r == Ok(p.videoUrls[i])
    ensures -(Len(p) as int) <= i < 0 ==> r == Ok(p.videoUrls[Len(p) + i])
    ensures r.Err? ==> r.error == IndexError
  {
    var n: int := Len(p);
    if 0 <= i < n then Ok(p.videoUrls[i])
    else if -n <= i < 0 then Ok(p.videoUrls[n + i])
    else Err(IndexError)
  }

  /** A slice bound as Python normalises it for step 1. */
  function SliceBound(b: Option<int>, n: nat, default: nat): (k: nat)
    requires default <= n
    ensures k <= n
  {
    match b
    case None => default
    case Some(x) => if x < 0 then (if x + n < 0 then 0 else x + n) else (if x > n then n else x)
  }

  /** `playlist[start:stop]`: never raises; out-of-range bounds are clamped. */
  function GetSlice(p: Playlist, start: Option<int>, stop: Option<int>): (r: seq<Entry>)
    ensures var lo := SliceBound(start, Len(p), 0); var hi := SliceBound(stop, Len(p), Len(p));
      && |r| == (if lo < hi then hi - lo else 0)
      && forall k :: 0 <= k < |r| ==> r[k] == p.videoUrls[lo + k]
  {
    var lo := SliceBound(start, Len(p), 0);
    var hi := SliceBound(stop, Len(p), Len(p));
    if lo < hi then p.videoUrls[lo..hi] else []
  }

  /** The full slice is the whole list. */
  lemma FullSlice(p: Playlist)
    ensures GetSlice(p, None, None) == p.videoUrls
  {
    if Len(p) > 0 {
      assert p.videoUrls[0..Len(p)] == p.videoUrls;
    }
  }

  /** Indexing agrees with the one-element slice at the same position, for
      non-negative and negative positions alike; `[-1:]` is the last item. */
  lemma ItemIsSlice(p: Playlist, i: int)
    ensures 0 <= i < Len(p) ==> GetSlice(p, Some(i), Some(i + 1)) == [GetItem(p, i).value]
    ensures -(Len(p) as int) <= i < -1 ==> GetSlice(p, Some(i), Some(i + 1)) == [GetItem(p, i).value]
    ensures Len(p) > 0 ==> GetSlice(p, Some(-1), None) == [GetItem(p, -1).value]
  {
    var n := Len(p);
    if 0 <= i < n {
      assert SliceBound(Some(i), n, 0) == i && SliceBound(Some(i + 1), n, n) == i + 1;
    } else if -(n as int) <= i < -1 {
      assert SliceBound(Some(i), n, 0) == n + i && SliceBound(Some(i + 1), n, n) == n + i + 1;
    }
    if n > 0 {
      assert SliceBound(Some(-1), n, 0) == n - 1 && SliceBound(None, n, n) == n;
    }
  }

  /** Position `EntryCount(pages[..i]) + j` of a built playlist holds entry
      `j` of page `i`. */
  lemma ItemOfPage(pages: seq<Page>, id: string, i: nat, j: nat)
    requires i < |pages| && j < |pages[i].entries|
    ensures GetItem(Playlist(id, PlaylistUrl(id), Flatten(pages)), EntryCount(pages[..i]) + j)
            == Ok(pages[i].entries[j])
  {
    FlattenLayout(pages, i, j);
  }

  const TitleMark := "- YouTube"

  /** `title`: the captured `<title>` text with every `- YouTube` removed,
      then stripped; no `<title>` gives `None`. */
  function PlaylistTitle(captured: Option<string>): (r: Option<string>)
    ensures r.None? <==> captured.None?
    ensures r.Some? && |r.value| > 0 ==> !Text.IsSpace(r.value[0]) && !Text.IsSpace(r.value[|r.value| - 1])
  {
    match captured
    case None => None
    case Some(g) => Some(Text.Strip(Text.ReplaceAll(g, TitleMark, "")))
  }

  /** A prefix at none of whose positions an occurrence starts is copied
      unchanged. */
  lemma {:induction false} ReplaceSkipsPrefix(x: string, rest: string)
    requires forall i :: 0 <= i < |x| ==> !Text.OccursAt(x + rest, TitleMark, i)
    ensures Text.ReplaceAll(x + rest, TitleMark, "") == x + Text.ReplaceAll(rest, TitleMark, "")
    decreases |x|
  {
    if |x| > 0 {
      var s := x + rest;
      assert s[1..] == x[1..] + rest;
      if |s| >= |TitleMark| {
        assert !Text.OccursAt(s, TitleMark, 0);
      }
      forall i | 0 <= i < |x[1..]|
        ensures !Text.OccursAt(x[1..] + rest, TitleMark, i)
      {
        assert !Text.OccursAt(s, TitleMark, i + 1);
        if i + |TitleMark| <= |s[1..]| {
          assert s[1..][i..i + |TitleMark|] == s[i + 1..i + 1 + |TitleMark|];
        }
      }
      ReplaceSkipsPrefix(x[1..], rest);
      assert [x[0]] + x[1..] == x;
    } else {
      assert x + rest == rest;
    }
  }

  /** In `name + " " + mark`, with the mark absent from `name`, the only
      occurrence of the mark is the final one. */
  lemma OnlyFinalMark(name: string)
    requires !Text.Contains(name, TitleMark)
    ensures forall i :: 0 <= i < |name + " "| ==> !Text.OccursAt(name + " " + TitleMark, TitleMark, i)
  {
    var t := name + " ";
    var s := t + TitleMark;
    assert s[|name|] == ' ' && s[|name| + 1] == '-';
    assert forall k :: 0 <= k < |TitleMark| && k != 1 ==> TitleMark[k] != ' ';
    forall i | 0 <= i < |t|
      ensures !Text.OccursAt(s, TitleMark, i)
    {
      var w := s[i..i + |TitleMark|];
      if i + |TitleMark| <= |name| {
        assert w == name[i..i + |TitleMark|];
        assert !Text.OccursAt(name, TitleMark, i);
      } else if i == |name| - 1 {
        assert w[2] == s[|name| + 1];
        assert w[2] != TitleMark[2];
      } else {
        var k := |name| - i;
        assert w[k] == s[|name|];
        assert w[k] != TitleMark[k];
      }
    }
  }

  /** An occurrence at the very front is removed and scanning resumes
      right after it. */
  lemma ReplaceAtFront(rest: string)
    ensures Text.ReplaceAll(TitleMark + rest, TitleMark, "") == Text.ReplaceAll(rest, TitleMark, "")
  {
    var s := TitleMark + rest;
    assert s[..|TitleMark|] == TitleMark;
    assert s[|TitleMark|..] == rest;
  }

  /** The usual page title `<name> - YouTube` gives back the name, for a
      name that does not itself hold the mark and has no surrounding
      whitespace. */
  lemma TitleOfYouTubePage(name: string)
    requires !Text.Contains(name, TitleMark)
    requires |name| > 0 ==> !Text.IsSpace(name[0]) && !Text.IsSpace(name[|name| - 1])
    ensures PlaylistTitle(Some(name + " - YouTube")) == Some(name)
  {
    var t := name + " ";
    assert name + " - YouTube" == t + TitleMark;
    OnlyFinalMark(name);
    ReplaceSkipsPrefix(t, TitleMark);
    ReplaceAtFront("");
    assert TitleMark + "" == TitleMark;
    assert Text.ReplaceAll("", TitleMark, "") == "";
    assert Text.ReplaceAll(TitleMark, TitleMark, "") == "";
    assert Text.ReplaceAll(name + " - YouTube", TitleMark, "") == t;
    if |name| > 0 {
      assert Text.LStrip(t) == t;
      assert t[..|t| - 1] == name;
      assert Text.RStrip(t) == Text.RStrip(name);
    }
  }

  /** A title without the mark is only stripped. */
  lemma TitleWithoutMark(g: string)
    requires !Text.Contains(g, TitleMark)
    ensures PlaylistTitle(Some(g)) == Some(Text.Strip(g))
  {
    Text.ReplaceAbsent(g, TitleMark, "");
  }

  /** 1, 2, ..., n. */
  function Ascending(n: nat): (r: seq<nat>)
    ensures |r| == n
    ensures forall k :: 0 <= k < n ==> r[k] == k + 1
  {
    if n == 0 then [] else Ascending(n - 1) + [n]
  }

  /** n, n - 1, ..., 1. */
  function Descending(n: nat): (r: seq<nat>)
    ensures |r| == n
    ensures forall k :: 0 <= k < n ==> r[k] == n - k
  {
    if n == 0 then [] else [n] + Descending(n - 1)
  }

  /** Each number written in decimal and zero-filled to `width`. */
  function Padded(nums: seq<nat>, width: nat): (r: seq<string>)
    ensures |r| == |nums|
    ensures forall k :: 0 <= k < |nums| ==> r[k] == Text.ZFill(Text.NatToString(nums[k]), width)
  {
    if |nums| == 0 then [] else [Text.ZFill(Text.NatToString(nums[0]), width)] + Padded(nums[1..], width)
  }

  /** `_path_num_prefix_generator`: the numbers 1..len (or len..1 when
      reversed), each zero-filled to the digit count of `len`. */
  function PathNumPrefixes(p: Playlist, reverse: bool): seq<string>
  {
    var n := Len(p);
    Padded(if reverse then Descending(n) else Ascending(n), |Text.NatToString(n)|)
  }

  /** The prefix of `m`, for `m` up to `n`, has the digit count of `n` and
      reads as `m`. */
  lemma PrefixOf(m: nat, n: nat)
    requires m <= n
    ensures var z := Text.ZFill(Text.NatToString(m), |Text.NatToString(n)|);
      |z| == |Text.NatToString(n)| && Text.AllDigits(z) && Text.DecimalValue(z) == m
  {
    Text.DigitsMonotone(m, n);
    Text.ZFillValue(Text.NatToString(m), |Text.NatToString(n)|);
    Text.DecimalRoundTrip(m);
  }

  /** There is one prefix per video; every prefix has as many digits as the
      length has, and the k-th prefix reads as k + 1 (as len - k when
      reversed). */
  lemma PathNumPrefixesShape(p: Playlist, reverse: bool)
    ensures var r := PathNumPrefixes(p, reverse); var n := Len(p);
      && |r| == n
      && forall k :: 0 <= k < n ==>
           && |r[k]| == |Text.NatToString(n)|
           && Text.AllDigits(r[k])
           && Text.DecimalValue(r[k]) == (if reverse then n - k else k + 1)
  {
    var n := Len(p);
    var r := PathNumPrefixes(p, reverse);
    var nums := if reverse then Descending(n) else Ascending(n);
    forall k | 0 <= k < n
      ensures |r[k]| == |Text.NatToString(n)| && Text.AllDigits(r[k])
      ensures Text.DecimalValue(r[k]) == (if reverse then n - k else k + 1)
    {
      PrefixOf(nums[k], n);
    }
  }

  /** The reversed prefixes are the forward ones backwards. */
  lemma PathNumPrefixesReversed(p: Playlist)
    ensures var n := Len(p);
      forall k :: 0 <= k < n ==> PathNumPrefixes(p, true)[k] == PathNumPrefixes(p, false)[n - 1 - k]
  {
    var n := Len(p);
    forall k | 0 <= k < n
      ensures PathNumPrefixes(p, true)[k] == PathNumPrefixes(p, false)[n - 1 - k]
    {
      assert Descending(n)[k] == Ascending(n)[n - 1 - k];
    }
  }

  /** No prefix repeats. */
  lemma PathNumPrefixesDistinct(p: Playlist, reverse: bool)
    ensures Helpers.NoDuplicates(PathNumPrefixes(p, reverse))
  {
    var r := PathNumPrefixes(p, reverse);
    PathNumPrefixesShape(p, reverse);
    forall i, j | 0 <= i < j < |r|
      ensures r[i] != r[j]
    {
      assert Text.DecimalValue(r[i]) != Text.DecimalValue(r[j]);
    }
  }
}

=== FILE: playlist_page.dfy ===
/** One page of a playlist: the continuation parser that turns a decoded
    JSON response into `(watch path, title)` entries plus an optional
    continuation token, the continuation request builder, and the small
    string rules beside them (initial-data capture, watch URL, the legacy
    HTML-match path). */
module PlaylistPage {
  import opened Wrappers
  import opened PyJson
  import Helpers
  import Text

  /** A `(watch path, title)` pair as the parser produces it. The title is
      whatever value the response holds under `simpleText`. */
  datatype Entry = Entry(path: string, title: Json)

  /** The entries of one page and the continuation value found on it. */
  datatype Page = Page(entries: seq<Entry>, continuation: Option<Json>)

  /** Where the video list sits in the initial page's data blob. */
  const InitialPath: seq<Step> := [
    Key("contents"), Key("twoColumnBrowseResultsRenderer"), Key("tabs"), Index(0),
    Key("tabRenderer"), Key("content"), Key("sectionListRenderer"), Key("contents"), Index(0),
    Key("itemSectionRenderer"), Key("contents"), Index(0), Key("playlistVideoListRenderer")]

  /** Where the video list sits in a continuation response. */
  const ContinuationPath: seq<Step> := [
    Index(1), Key("response"), Key("continuationContents"), Key("playlistVideoListContinuation")]

  /** Where the next token sits inside a video list. */
  const TokenPath: seq<Step> := [
    Key("continuations"), Index(0), Key("nextContinuationData"), Key("continuation")]

  const VideoIdPath: seq<Step> := [Key("playlistVideoRenderer"), Key("videoId")]
  const TitlePath: seq<Step> := [Key("playlistVideoRenderer"), Key("title"), Key("simpleText")]

  const WatchPrefix := "/watch?id="

  /** The video list container: the initial-page shape if its lookup
      succeeds, else the continuation shape, else none. */
  function ContainerOf(data: Json): (c: Option<Json>)
    ensures Walk(data, InitialPath).Ok? ==> c == Some(Walk(data, InitialPath).value)
    ensures Walk(data, InitialPath).Err? && Walk(data, ContinuationPath).Ok? ==>
      c == Some(Walk(data, ContinuationPath).value)
    ensures c.None? <==> Walk(data, InitialPath).Err? && Walk(data, ContinuationPath).Err?
  {
    match Walk(data, InitialPath)
    case Ok(c) => Some(c)
    case Err(_) =>
      match Walk(data, ContinuationPath)
      case Ok(c) => Some(c)
      case Err(_) => None
  }

  /** The continuation token of a container: a missing key or an index out
      of range means there is none; a TypeError is not caught. */
  function TokenOf(container: Json): (r: Result<Option<Json>, PyError>)
    ensures Walk(container, TokenPath).Ok? ==> r == Ok(Some(Walk(container, TokenPath).value))
    ensures container.Obj? && "continuations" !in container.fields ==> r == Ok(None)
    ensures (container.Obj? && "continuations" in container.fields &&
             container.fields["continuations"] == Arr([])) ==> r == Ok(None)
    ensures r.Err? ==> r.error == TypeError
    ensures r == Ok(None) <==> Walk(container, TokenPath).Err? && !Walk(container, TokenPath).error.TypeError?
    ensures r.Err? <==> Walk(container, TokenPath).Err? && Walk(container, TokenPath).error.TypeError?
  {
    match Walk(container, TokenPath)
    case Ok(t) => Ok(Some(t))
    case Err(e) => if e.KeyError? || e.IndexError? then Ok(None) else Err(e)
  }

  /** The lambda applied to one element of `contents`: the watch path from
      the video id, then the title; the first failing subscript raises. */
  function EntryOf(item: Json): (r: Result<Entry, PyError>)
    ensures r.Ok? <==> Walk(item, VideoIdPath).Ok? && Walk(item, TitlePath).Ok?
    ensures r.Ok? ==> r.value.title == Walk(item, TitlePath).value
    ensures r.Ok? ==> r.value.path == WatchPrefix + Format(Walk(item, VideoIdPath).value)
  {
    var id :- Walk(item, VideoIdPath);
    var title :- Walk(item, TitlePath);
    Ok(Entry(WatchPrefix + Format(id), title))
  }

  /** Element `k` is the first of `items` to fail, and fails with `e`. */
  predicate FailsFirstAt(items: seq<Json>, k: int, e: PyError)
  {
    && 0 <= k < |items|
    && EntryOf(items[k]) == Err(e)
    && forall j :: 0 <= j < k ==> EntryOf(items[j]).Ok?
  }

  /** `list(map(lambda, items))`: every element converted in order; the
      first element that fails aborts the whole list with its exception. */
  function EntriesOf(items: seq<Json>): (r: Result<seq<Entry>, PyError>)
    ensures r.Ok? <==> forall k :: 0 <= k < |items| ==> EntryOf(items[k]).Ok?
    ensures r.Ok? ==> |r.value| == |items|
    ensures r.Ok? ==> forall k :: 0 <= k < |items| ==> r.value[k] == EntryOf(items[k]).value
    ensures r.Err? ==> exists k :: FailsFirstAt(items, k, r.error)
  {
    if |items| == 0 then Ok([])
    else
      match EntryOf(items[0])
      case Err(e) =>
        assert FailsFirstAt(items, 0, e);
        Err(e)
      case Ok(x) =>
        match EntriesOf(items[1..])
        case Err(e) =>
          FailureShifts(items, e);
          Err(e)
        case Ok(xs) =>
          assert forall k :: 1 <= k < |items| ==> items[k] == items[1..][k - 1];
          Ok([x] + xs)
  }

  lemma FailureShifts(items: seq<Json>, e: PyError)
    requires |items| > 0 && EntryOf(items[0]).Ok?
    requires exists k :: FailsFirstAt(items[1..], k, e)
    ensures exists k :: FailsFirstAt(items, k, e)
  {
    var k :| FailsFirstAt(items[1..], k, e);
    forall j | 0 <= j < k + 1
      ensures EntryOf(items[j]).Ok?
    {
      if j > 0 {
        assert items[j] == items[1..][j - 1];
      }
    }
    assert FailsFirstAt(items, k + 1, e);
  }

  /** Mapping over the `contents` value. A list is mapped element by
      element. Iterating a string yields one-character strings and
      iterating a dict yields its keys, also strings, so any element of
      either fails the first subscript with TypeError; other values are
      not iterable. */
  function VideoEntries(videos: Json): (r: Result<seq<Entry>, PyError>)
    ensures videos.Arr? ==> r == EntriesOf(videos.items)
    ensures !videos.Arr? && r.Ok? ==> r.value == []
  {
    match videos
    case Arr(items) => EntriesOf(items)
    case Str(s) => if |s| == 0 then Ok([]) else Err(TypeError)
    case Obj(m) => if |m| == 0 then Ok([]) else Err(TypeError)
    case _ => Err(TypeError)
  }

  /** What `_extract_videos` does once the container is found: read
      `contents` (uncaught on failure), read the token, convert every element,
      then `uniqueify` the pairs (which hashes each one, so a list or dict
      title raises TypeError). */
  function ParseContainer(container: Json): (r: Result<Page, PyError>)
    ensures GetKey(container, "contents").Err? ==> r == Err(GetKey(container, "contents").error)
    ensures r.Ok? ==> Helpers.NoDuplicates(r.value.entries)
    ensures r.Ok? ==> TokenOf(container) == Ok(r.value.continuation)
    ensures r.Ok? ==> GetKey(container, "contents").Ok? && VideoEntries(GetKey(container, "contents").value).Ok?
    ensures r.Ok? ==> var converted := VideoEntries(GetKey(container, "contents").value).value;
      Helpers.InFirstOccurrenceOrder(converted, r.value.entries) &&
      forall e :: e in r.value.entries <==> e in converted
  {
    var videos :- GetKey(container, "contents");
    var continuation :- TokenOf(container);
    var entries :- VideoEntries(videos);
    if forall k :: 0 <= k < |entries| ==> Hashable(entries[k].title) then
      Helpers.UniqueifyOrder(entries);
      Ok(Page(Helpers.Uniqueify(entries), continuation))
    else Err(TypeError)
  }

  /** `_extract_videos` applied to the decoded JSON of a response. */
  function ExtractVideos(data: Json): (r: Result<Page, PyError>)
    ensures ContainerOf(data).None? ==> r == Ok(Page([], None))
    ensures ContainerOf(data).Some? ==> r == ParseContainer(ContainerOf(data).value)
    ensures r.Ok? ==> Helpers.NoDuplicates(r.value.entries)
  {
    match ContainerOf(data)
    case None => Ok(Page([], None))
    case Some(c) => ParseContainer(c)
  }

  /** The initial-page shape wins even when the response also matches the
      continuation shape. */
  lemma InitialShapePreferred(data: Json)
    ensures Walk(data, InitialPath).Ok? ==>
      ExtractVideos(data) == ParseContainer(Walk(data, InitialPath).value)
  {
  }

  /** A response missing the initial-page path but matching the
      continuation shape is parsed from the fallback container. */
  lemma ContinuationShapeFallback(data: Json)
    ensures Walk(data, InitialPath).Err? && Walk(data, ContinuationPath).Ok? ==>
      ExtractVideos(data) == ParseContainer(Walk(data, ContinuationPath).value)
  {
  }

  /** A video list wrapped in the initial page's envelope is found there. */
  lemma InitialEnvelope(c: Json)
    ensures ExtractVideos(Nest(InitialPath, c)) == ParseContainer(c)
  {
    WalkNest(InitialPath, c);
  }

  /** A video list wrapped in a continuation response's envelope is found
      by the fallback: the envelope is a list, so the initial-page lookup
      fails with TypeError on its first key. */
  lemma ContinuationEnvelope(c: Json)
    ensures Walk(Nest(ContinuationPath, c), InitialPath).Err?
    ensures ExtractVideos(Nest(ContinuationPath, c)) == ParseContainer(c)
  {
    WalkNest(ContinuationPath, c);
  }

  /** The playlist-video element for a video id and a title value. */
  function VideoItem(id: string, title: Json): Json
  {
    Obj(map["playlistVideoRenderer" := Obj(map["videoId" := Str(id), "title" := Obj(map["simpleText" := title])])])
  }

  /** A video list holding the given elements and, if present, a token. */
  function ContainerJson(items: seq<Json>, token: Option<Json>): Json
  {
    var contents := map["contents" := Arr(items)];
    match token
    case None => Obj(contents)
    case Some(t) =>
      Obj(contents["continuations" := Arr([Obj(map["nextContinuationData" := Obj(map["continuation" := t])])])])
  }

  /** Each element maps to `("/watch?id=" + videoId, title.simpleText)`. */
  lemma VideoItemEntry(id: string, title: Json)
    ensures EntryOf(VideoItem(id, title)) == Ok(Entry(WatchPrefix + id, title))
  {
    var item := VideoItem(id, title);
    assert Walk(item, VideoIdPath) == Ok(Str(id)) by {
      assert VideoIdPath[1..] == [Key("videoId")];
    }
    assert Walk(item, TitlePath) == Ok(title) by {
      assert TitlePath[1..] == [Key("title"), Key("simpleText")];
      assert TitlePath[1..][1..] == [Key("simpleText")];
    }
  }

  /** Parsing any video list whose `contents` is a list of elements that
      all convert, with hashable titles and a readable token, gives the
      converted entries, first occurrences only, in order, with that token. */
  lemma ParseWellFormed(c: Json)
    requires c.Obj? && "contents" in c.fields && c.fields["contents"].Arr?
    requires TokenOf(c).Ok?
    requires EntriesOf(c.fields["contents"].items).Ok?
    requires var es := EntriesOf(c.fields["contents"].items).value;
      forall k :: 0 <= k < |es| ==> Hashable(es[k].title)
    ensures ParseContainer(c) ==
      Ok(Page(Helpers.Uniqueify(EntriesOf(c.fields["contents"].items).value), TokenOf(c).value))
  {
  }

  lemma ContainerToken(items: seq<Json>, token: Option<Json>)
    ensures TokenOf(ContainerJson(items, token)) == Ok(token)
  {
    var c := ContainerJson(items, token);
    match token
    case None =>
      assert "continuations" !in c.fields;
    case Some(t) =>
      var leaf := Obj(map["continuation" := t]);
      var inner := Obj(map["nextContinuationData" := leaf]);
      assert GetKey(c, "continuations") == Ok(Arr([inner]));
      assert GetIndex(Arr([inner]), 0) == Ok(inner);
      assert Walk(c, TokenPath) == Walk(inner, TokenPath[2..]) by {
        assert TokenPath[1..][1..] == TokenPath[2..];
      }
      assert Walk(inner, TokenPath[2..]) == Walk(leaf, TokenPath[3..]) by {
        assert TokenPath[2..][1..] == TokenPath[3..];
      }
      assert TokenPath[3..][1..] == [];
  }

  /** One malformed element aborts the whole page instead of being skipped. */
  lemma MalformedElementAborts(container: Json, k: nat)
    requires container.Obj? && "contents" in container.fields
    requires container.fields["contents"].Arr?
    requires TokenOf(container).Ok?
    requires k < |container.fields["contents"].items|
    requires EntryOf(container.fields["contents"].items[k]).Err?
    ensures ParseContainer(container).Err?
  {
  }

  /** A one-video initial page parses to that video's entry and its token. */
  lemma SingleVideoPage(id: string, title: Json, token: Option<Json>)
    requires Hashable(title)
    ensures ExtractVideos(Nest(InitialPath, ContainerJson([VideoItem(id, title)], token)))
            == Ok(Page([Entry(WatchPrefix + id, title)], token))
  {
    var items := [VideoItem(id, title)];
    var entries := [Entry(WatchPrefix + id, title)];
    VideoItemEntry(id, title);
    ContainerToken(items, token);
    assert EntryOf(items[0]) == Ok(entries[0]);
    assert EntriesOf(items).value == entries;
    ParseWellFormed(ContainerJson(items, token));
    Helpers.UniqueifyDistinct(entries);
    InitialEnvelope(ContainerJson(items, token));
  }

  /** An HTTP request: URL and extra headers in insertion order. */
  datatype Request = Request(url: string, headers: seq<(string, string)>)

  const AjaxPrefix := "https://www.youtube.com/browse_ajax?ctoken="
  const AjaxSeparator := "&continuation="
  const ClientHeaders: seq<(string, string)> := [
    ("X-YouTube-Client-Name", "1"), ("X-YouTube-Client-Version", "2.20200720.00.02")]

  /** `_build_continuation_url`: the URL and the fixed client headers. */
  function BuildContinuationUrl(token: string): Request
  {
    Request(AjaxPrefix + token + AjaxSeparator + token, ClientHeaders)
  }

  /** The token sits verbatim in both query parameters, `ctoken` and
      `continuation`, and the headers are always the fixed client pair. */
  lemma ContinuationUrlLayout(token: string)
    ensures var r := BuildContinuationUrl(token);
      && r.headers == ClientHeaders
      && |r.url| == |AjaxPrefix| + |AjaxSeparator| + 2 * |token|
      && r.url[..|AjaxPrefix|] == AjaxPrefix
      && r.url[|AjaxPrefix|..|AjaxPrefix| + |token|] == token
      && r.url[|AjaxPrefix| + |token|..|AjaxPrefix| + |token| + |AjaxSeparator|] == AjaxSeparator
      && r.url[|AjaxPrefix| + |token| + |AjaxSeparator|..] == token
  {
  }

  /** Reads the token back out of a continuation URL, if it is one. */
  function ContinuationTokenOf(url: string): Option<string>
  {
    var n := |url| - |AjaxPrefix| - |AjaxSeparator|;
    if n < 0 || n % 2 != 0 then None
    else
      var t := url[|AjaxPrefix|..|AjaxPrefix| + n / 2];
      if url == AjaxPrefix + t + AjaxSeparator + t then Some(t) else None
  }

  /** The builder and the reader are inverse: the token is recovered from its
      URL, and a URL the reader accepts is the one built from its token, so
      distinct tokens give distinct URLs. */
  lemma ContinuationUrlRoundTrip(token: string, url: string)
    ensures ContinuationTokenOf(BuildContinuationUrl(token).url) == Some(token)
    ensures ContinuationTokenOf(url) == Some(token) ==> BuildContinuationUrl(token).url == url
  {
    ContinuationUrlLayout(token);
  }

  /** `_extract_json`: the captured assignment text without its last
      character (the statement's `;`). A failed search leaves `None`, whose
      `.group` raises AttributeError. */
  function ExtractJson(captured: Option<string>): (r: Result<string, PyError>)
    ensures captured.None? <==> r == Err(AttributeError)
    ensures captured.Some? && |captured.value| > 0 ==>
      r.Ok? && r.value + [captured.value[|captured.value| - 1]] == captured.value
    ensures captured == Some("") ==> r == Ok("")
  {
    match captured
    case None => Err(AttributeError)
    case Some(g) => Ok(if |g| == 0 then "" else g[..|g| - 1])
  }

  const SiteRoot := "https://www.youtube.com"

  /** `_video_url`: the absolute URL of a watch path. */
  function VideoUrl(watchPath: string): (r: string)
    ensures |r| == |SiteRoot| + |watchPath|
    ensures r[..|SiteRoot|] == SiteRoot && r[|SiteRoot|..] == watchPath
  {
    SiteRoot + watchPath
  }

  function OldPairs(matches: seq<(string, string)>): (r: seq<(string, string)>)
    ensures |r| == |matches|
    ensures forall k :: 0 <= k < |matches| ==> r[k] == (VideoUrl(matches[k].0), matches[k].1)
  {
    if |matches| == 0 then [] else [(VideoUrl(matches[0].0), matches[0].1)] + OldPairs(matches[1..])
  }

  /** `_extract_videos_old` after the regex: each `(watch path, title)`
      match becomes `(absolute URL, title)`, then duplicates are dropped. */
  function ExtractVideosOld(matches: seq<(string, string)>): (r: seq<(string, string)>)
    ensures Helpers.NoDuplicates(r)
    ensures forall k :: 0 <= k < |r| ==> |r[k].0| >= |SiteRoot| && r[k].0[..|SiteRoot|] == SiteRoot
    ensures forall k :: 0 <= k < |matches| ==> (VideoUrl(matches[k].0), matches[k].1) in r
    ensures forall k :: 0 <= k < |r| ==>
      exists j :: 0 <= j < |matches| && r[k] == (VideoUrl(matches[j].0), matches[j].1)
    ensures Helpers.InFirstOccurrenceOrder(OldPairs(matches), r)
  {
    var pairs := OldPairs(matches);
    var r := Helpers.Uniqueify(pairs);
    Helpers.UniqueifyOrder(pairs);
    assert forall k :: 0 <= k < |r| ==> r[k] in pairs;
    r
  }
}

=== FILE: py_json.dfy ===
/** Decoded JSON values as `json.loads` returns them (dict, list, str, int,
    bool, None), together with what Python does when the playlist code
    subscripts them, tests them for truth, hashes them or formats them. */
module PyJson {
  import opened Wrappers
  import Text

  datatype Json =
    | Null
    | Bool(b: bool)
    | Num(n: int)
    | Str(s: string)
    | Arr(items: seq<Json>)
    | Obj(fields: map<string, Json>)

  /** The Python exceptions the modelled code can raise. `DecodeError` is
      `json.JSONDecodeError`; `ClientError` is a transport failure of the
      HTTP client. */
  datatype PyError =
    | KeyError
    | IndexError
    | TypeError
    | ValueError
    | AttributeError
    | DecodeError
    | ClientError

  /** The exceptions the code catches around a subscript chain. */
  predicate IsLookupError(e: PyError)
  {
    e.KeyError? || e.IndexError? || e.TypeError?
  }

  /** One subscript `[...]` with a string key or an integer index. */
  datatype Step = Key(k: string) | Index(i: nat)

  /** `v[k]` for a string key: a dict looks the key up, everything else
      refuses a string subscript. */
  function GetKey(v: Json, k: string): (r: Result<Json, PyError>)
    ensures r.Ok? <==> v.Obj? && k in v.fields
    ensures r.Ok? ==> r.value == v.fields[k]
    ensures r.Err? ==> r.error == (if v.Obj? then KeyError else TypeError)
  {
    match v
    case Obj(m) => if k in m then Ok(m[k]) else Err(KeyError)
    case _ => Err(TypeError)
  }

  /** `v[i]` for an integer index: a list or a string is indexed (a string
      yields a one-character string), a dict has no integer keys, and the
      other values are not subscriptable. */
  function GetIndex(v: Json, i: nat): (r: Result<Json, PyError>)
    ensures r.Ok? <==> (v.Arr? && i < |v.items|) || (v.Str? && i < |v.s|)
    ensures r.Ok? && v.Arr? ==> r.value == v.items[i]
    ensures r.Ok? && v.Str? ==> r.value == Str([v.s[i]])
    ensures r.Err? ==> r.error == (if v.Arr? || v.Str? then IndexError
                                   else if v.Obj? then KeyError
                                   else TypeError)
  {
    match v
    case Arr(a) => if i < |a| then Ok(a[i]) else Err(IndexError)
    case Str(s) => if i < |s| then Ok(Str([s[i]])) else Err(IndexError)
    case Obj(_) => Err(KeyError)
    case _ => Err(TypeError)
  }

  function Subscript(v: Json, step: Step): Result<Json, PyError>
  {
    match step
    case Key(k) => GetKey(v, k)
    case Index(i) => GetIndex(v, i)
  }

  /** A chain of subscripts `v[p0][p1]...`, evaluated left to right and
      stopping at the first exception. */
  function Walk(v: Json, path: seq<Step>): (r: Result<Json, PyError>)
    ensures r.Err? ==> IsLookupError(r.error)
    decreases |path|
  {
    if |path| == 0 then Ok(v)
    else
      match Subscript(v, path[0])
      case Ok(w) => Walk(w, path[1..])
      case Err(e) => Err(e)
  }

  /** Walking a concatenated path is walking the first part, then the rest. */
  lemma {:induction false} WalkAppend(v: Json, p: seq<Step>, q: seq<Step>)
    ensures Walk(v, p + q) == match Walk(v, p)
                              case Ok(w) => Walk(w, q)
                              case Err(e) => Err(e)
    decreases |p|
  {
    if |p| > 0 {
      assert (p + q)[0] == p[0];
      assert (p + q)[1..] == p[1..] + q;
      match Subscript(v, p[0])
      case Ok(w) => WalkAppend(w, p[1..], q);
      case Err(_) =>
    } else {
      assert p + q == q;
    }
  }

  /** The smallest JSON value whose `path` leads to `leaf`: one-key dicts for
      keys, and lists padded with `null` for indices. */
  function Nest(path: seq<Step>, leaf: Json): Json
  {
    if |path| == 0 then leaf
    else
      var inner := Nest(path[1..], leaf);
      match path[0]
      case Key(k) => Obj(map[k := inner])
      case Index(i) => Arr(Nulls(i) + [inner])
  }

  function Nulls(n: nat): (r: seq<Json>)
    ensures |r| == n
  {
    if n == 0 then [] else Nulls(n - 1) + [Null]
  }

  /** Following a path through the value nested along it reaches the leaf. */
  lemma {:induction false} WalkNest(path: seq<Step>, leaf: Json)
    ensures Walk(Nest(path, leaf), path) == Ok(leaf)
  {
    if |path| > 0 {
      WalkNest(path[1..], leaf);
    }
  }

  /** Python's truth value of a decoded JSON value. */
  predicate Truthy(v: Json)
  {
    match v
    case Null => false
    case Bool(b) => b
    case Num(n) => n != 0
    case Str(s) => |s| > 0
    case Arr(a) => |a| > 0
    case Obj(m) => |m| > 0
  }

  /** Lists and dicts are unhashable; the other values hash. */
  predicate Hashable(v: Json)
  {
    !v.Arr? && !v.Obj?
  }

  /** Python's `str(v)` (what an f-string inserts). Exact for strings,
      numbers, booleans and `None`; a list or a dict is written as a fixed
      placeholder instead of its Python repr. */
  function Format(v: Json): string
  {
    match v
    case Null => "None"
    case Bool(b) => if b then "True" else "False"
    case Num(n) => Text.IntToString(n)
    case Str(s) => s
    case Arr(_) => "[...]"
    case Obj(_) => "{...}"
  }
}

=== FILE: streams.dfy ===
/** The codec and media-type classification of a media stream: adaptive
    (DASH, one track) versus progressive (audio and video muxed), which
    tracks a stream carries, how its codec list splits into a video and an
    audio codec, its title fallback and the fields its printable form shows. */
module Streams {
  import opened Wrappers
  import opened PyJson
  import Text

  /** The part of the itag format profile the stream keeps and prints;
      the profile lookup table itself is not part of this model. */
  datatype Profile = Profile(resolution: Option<string>, fps: Option<int>, abr: Option<string>)

  datatype Stream = Stream(
    itag: int,
    mimeType: string,
    codecs: seq<string>,
    mediaType: string,
    subtype: string,
    videoCodec: Option<string>,
    audioCodec: Option<string>,
    profile: Profile,
    sharedTitle: Option<string>)

  /** One codec is a DASH stream; two codecs are a progressive one. */
  predicate IsAdaptive(codecs: seq<string>)
  {
    |codecs| % 2 == 1
  }

  predicate IsProgressive(codecs: seq<string>)
  {
    !IsAdaptive(codecs)
  }

  predicate IncludesAudioTrack(codecs: seq<string>, mediaType: string)
  {
    IsProgressive(codecs) || mediaType == "audio"
  }

  predicate IncludesVideoTrack(codecs: seq<string>, mediaType: string)
  {
    IsProgressive(codecs) || mediaType == "video"
  }

  /** How the classification predicates relate: progressive streams carry
      both tracks, an adaptive stream carries exactly the track its media
      type names, and never both. */
  lemma TrackClassification(codecs: seq<string>, mediaType: string)
    ensures IsAdaptive(codecs) <==> |codecs| % 2 == 1
    ensures IsProgressive(codecs) <==> !IsAdaptive(codecs)
    ensures IsProgressive(codecs) ==>
      IncludesAudioTrack(codecs, mediaType) && IncludesVideoTrack(codecs, mediaType)
    ensures IsAdaptive(codecs) ==>
      && (IncludesVideoTrack(codecs, mediaType) <==> mediaType == "video")
      && (IncludesAudioTrack(codecs, mediaType) <==> mediaType == "audio")
      && !(IncludesVideoTrack(codecs, mediaType) && IncludesAudioTrack(codecs, mediaType))
  {
  }

  /** `mime_type.split("/")` unpacked into `type, subtype`: anything but
      exactly one slash fails the unpacking with ValueError. */
  function SplitMimeType(mimeType: string): (r: Result<(string, string), PyError>)
    ensures r.Ok? <==> Text.Count(mimeType, '/') == 1
    ensures r.Err? ==> r.error == ValueError
    ensures r.Ok? ==> '/' !in r.value.0 && '/' !in r.value.1
  {
    var parts := Text.Split(mimeType, '/');
    if |parts| == 2 then Ok((parts[0], parts[1])) else Err(ValueError)
  }

  /** The two halves put back together with the slash are the MIME type, and
      a MIME type built from two slash-free halves splits back into them. */
  lemma {:induction false} MimeTypeRoundTrip(mimeType: string, mediaType: string, subtype: string)
    ensures SplitMimeType(mimeType) == Ok((mediaType, subtype)) ==>
      mimeType == mediaType + "/" + subtype
    ensures '/' !in mediaType && '/' !in subtype ==>
      SplitMimeType(mediaType + "/" + subtype) == Ok((mediaType, subtype))
  {
    var parts := Text.Split(mimeType, '/');
    Text.JoinSplit(mimeType, '/');
    if |parts| == 2 {
      assert Text.Join(parts, "/") == parts[0] + "/" + Text.Join(parts[1..], "/");
    }
    if '/' !in mediaType && '/' !in subtype {
      var both := [mediaType, subtype];
      Text.SplitJoin(both, '/');
      assert Text.Join(both, "/") == mediaType + "/" + subtype;
    }
  }

  /** `parse_codecs`: the (video, audio) codec pair. A progressive stream
      unpacks its codec list into exactly two names; an adaptive stream
      puts its first codec on the side its media type names. */
  function ParseCodecs(codecs: seq<string>, mediaType: string): (r: Result<(Option<string>, Option<string>), PyError>)
    ensures r.Err? <==> IsProgressive(codecs) && |codecs| != 2
    ensures r.Err? ==> r.error == ValueError
    ensures r.Ok? ==>
      && (r.value.0.Some? <==> IncludesVideoTrack(codecs, mediaType))
      && (r.value.1.Some? <==> IncludesAudioTrack(codecs, mediaType))
      && (r.value.0.Some? ==> r.value.0.value == codecs[0])
      && (r.value.1.Some? ==> r.value.1.value == codecs[if IsAdaptive(codecs) then 0 else 1])
    ensures r.Ok? && IsAdaptive(codecs) ==> r.value.0.None? || r.value.1.None?
  {
    if !IsAdaptive(codecs) then
      if |codecs| == 2 then Ok((Some(codecs[0]), Some(codecs[1]))) else Err(ValueError)
    else if IncludesVideoTrack(codecs, mediaType) then Ok((Some(codecs[0]), None))
    else if IncludesAudioTrack(codecs, mediaType) then Ok((None, Some(codecs[0])))
    else Ok((None, None))
  }

  /** The part of the `Stream` constructor after the MIME type and codec
      list are extracted: split the MIME type, then parse the codecs. */
  function NewStream(itag: int, mimeType: string, codecs: seq<string>, profile: Profile,
                     sharedTitle: Option<string>): (r: Result<Stream, PyError>)
    ensures r.Ok? <==> Text.Count(mimeType, '/') == 1 && (IsAdaptive(codecs) || |codecs| == 2)
    ensures r.Ok? ==>
      && r.value.mimeType == mimeType && r.value.codecs == codecs
      && mimeType == r.value.mediaType + "/" + r.value.subtype
      && (r.value.videoCodec.Some? <==> IncludesVideoTrack(codecs, r.value.mediaType))
      && (r.value.audioCodec.Some? <==> IncludesAudioTrack(codecs, r.value.mediaType))
    ensures r.Ok? ==> ParseCodecs(codecs, r.value.mediaType) == Ok((r.value.videoCodec, r.value.audioCodec))
  {
    var (mediaType, subtype) :- SplitMimeType(mimeType);
    MimeTypeRoundTrip(mimeType, mediaType, subtype);
    var (video, audio) :- ParseCodecs(codecs, mediaType);
    Ok(Stream(itag, mimeType, codecs, mediaType, subtype, video, audio, profile, sharedTitle))
  }

  const UnknownTitle := "Unknown YouTube Video Title"

  /** The shared title when it is a non-empty string, else the fixed
      placeholder. */
  function Title(s: Stream): (t: string)
    ensures |t| > 0
    ensures s.sharedTitle.Some? && |s.sharedTitle.value| > 0 ==> t == s.sharedTitle.value
    ensures (s.sharedTitle.None? || s.sharedTitle.value == "") ==> t == UnknownTitle
  {
    match s.sharedTitle
    case Some(t) => if |t| > 0 then t else UnknownTitle
    case None => UnknownTitle
  }

  /** The attributes the printable form of a stream can show. */
  datatype Field = Itag | MimeType | Res | Fps | VCodec | Abr | ACodec | Progressive | MediaType

  /** Which attributes `__repr__` shows, in order. */
  function ReprFields(s: Stream): seq<Field>
  {
    var video := IncludesVideoTrack(s.codecs, s.mediaType);
    [Itag, MimeType]
    + (if video then
         [Res, Fps] + (if !IsAdaptive(s.codecs) then [VCodec, ACodec] else [VCodec])
       else [Abr, ACodec])
    + [Progressive, MediaType]
  }

  /** No attribute appears twice in `f`. */
  predicate DistinctFields(f: seq<Field>)
  {
    forall i, j :: 0 <= i < j < |f| ==> f[i] != f[j]
  }

  /** The attributes shown, for each of the three kinds of stream. */
  lemma ReprFieldsCases(s: Stream)
    ensures var video := IncludesVideoTrack(s.codecs, s.mediaType);
      ReprFields(s) ==
        if video && IsProgressive(s.codecs) then [Itag, MimeType, Res, Fps, VCodec, ACodec, Progressive, MediaType]
        else if video then [Itag, MimeType, Res, Fps, VCodec, Progressive, MediaType]
        else [Itag, MimeType, Abr, ACodec, Progressive, MediaType]
  {
  }

  /** Position of an attribute in the order the printable form uses. */
  function Rank(f: Field): nat
  {
    match f
    case Itag => 0
    case MimeType => 1
    case Res => 2
    case Fps => 3
    case VCodec => 4
    case Abr => 5
    case ACodec => 6
    case Progressive => 7
    case MediaType => 8
  }

  /** Each attribute comes after the one before it in that order. */
  predicate Rising(f: seq<Field>)
  {
    forall i :: 0 <= i < |f| - 1 ==> Rank(f[i]) < Rank(f[i + 1])
  }

  /** Attributes in rising order are all different. */
  lemma {:induction false} RisingDistinct(f: seq<Field>)
    requires Rising(f)
    ensures DistinctFields(f)
    ensures |f| > 0 ==> forall j :: 0 < j < |f| ==> Rank(f[0]) < Rank(f[j])
  {
    if |f| > 0 {
      RisingDistinct(f[1..]);
      assert forall j :: 1 < j < |f| ==> f[j] == f[1..][j - 1];
    }
  }

  /** The attributes shown start with identity and end with
      progressiveness and media type, in rising order. */
  lemma ReprFieldsFrame(s: Stream)
    ensures var f := ReprFields(s);
      && |f| >= 6 && f[0] == Itag && f[1] == MimeType
      && f[|f| - 2] == Progressive && f[|f| - 1] == MediaType
      && Rising(f)
  {
    ReprFieldsCases(s);
  }

  /** Which of the track-specific attributes are shown. */
  lemma ReprFieldsMembers(s: Stream)
    ensures var f := ReprFields(s); var video := IncludesVideoTrack(s.codecs, s.mediaType);
      && (Res in f <==> video) && (Fps in f <==> video) && (VCodec in f <==> video)
      && (Abr in f <==> !video)
      && (ACodec in f <==> !video || IsProgressive(s.codecs))
  {
    var f := ReprFields(s);
    ReprFieldsCases(s);
    if IncludesVideoTrack(s.codecs, s.mediaType) && IsProgressive(s.codecs) {
      assert Abr !in f;
    } else if IncludesVideoTrack(s.codecs, s.mediaType) {
      assert Abr !in f && ACodec !in f;
    } else {
      assert Res !in f && Fps !in f && VCodec !in f;
    }
  }

  /** A stream with a video track shows resolution, frame rate and video
      codec; a progressive one also shows the audio codec; an audio-only one
      shows bitrate and audio codec; identity, progressiveness and media type
      are always shown, and no attribute is shown twice. */
  lemma ReprFieldSelection(s: Stream)
    ensures var f := ReprFields(s); var video := IncludesVideoTrack(s.codecs, s.mediaType);
      && f[0] == Itag && f[1] == MimeType
      && f[|f| - 2] == Progressive && f[|f| - 1] == MediaType
      && (Res in f <==> video) && (Fps in f <==> video) && (VCodec in f <==> video)
      && (Abr in f <==> !video)
      && (ACodec in f <==> !video || IsProgressive(s.codecs))
      && DistinctFields(f)
  {
    ReprFieldsFrame(s);
    ReprFieldsMembers(s);
    RisingDistinct(ReprFields(s));
  }

  function ShowOption(o: Option<string>): string
  {
    match o
    case Some(v) => v
    case None => "None"
  }

  /** One `name="value"` part of the printable form. */
  function FieldText(s: Stream, f: Field): string
  {
    match f
    case Itag => "itag=\"" + Text.IntToString(s.itag) + "\""
    case MimeType => "mime_type=\"" + s.mimeType + "\""
    case Res => "res=\"" + ShowOption(s.profile.resolution) + "\""
    case Fps => "fps=\"" + (match s.profile.fps case Some(n) => Text.IntToString(n) case None => "None") + "fps\""
    case VCodec => "vcodec=\"" + ShowOption(s.videoCodec) + "\""
    case ACodec => "acodec=\"" + ShowOption(s.audioCodec) + "\""
    case Abr => "abr=\"" + ShowOption(s.profile.abr) + "\""
    case Progressive => "progressive=\"" + (if IsProgressive(s.codecs) then "True" else "False") + "\""
    case MediaType => "type=\"" + s.mediaType + "\""
  }

  function FieldTexts(s: Stream, fs: seq<Field>): (r: seq<string>)
    ensures |r| == |fs|
    ensures forall k :: 0 <= k < |fs| ==> r[k] == FieldText(s, fs[k])
  {
    if |fs| == 0 then [] else [FieldText(s, fs[0])] + FieldTexts(s, fs[1..])
  }

  /** `__repr__`: the selected parts joined by spaces inside `<Stream: ...>`. */
  function Repr(s: Stream): string
  {
    "<Stream: " + Text.Join(FieldTexts(s, ReprFields(s)), " ") + ">"
  }

  /** Every selected attribute appears in the printable form. */
  lemma ReprShowsFields(s: Stream, k: nat)
    requires k < |ReprFields(s)|
    ensures Text.Contains(Repr(s), FieldText(s, ReprFields(s)[k]))
  {
    var parts := FieldTexts(s, ReprFields(s));
    JoinContains(parts, " ", k);
    Text.ContainsWithin("<Stream: ", Text.Join(parts, " "), ">", parts[k]);
  }

  /** Each part of a join occurs in the joined string. */
  lemma {:induction false} JoinContains(parts: seq<string>, sep: string, k: nat)
    requires k < |parts|
    ensures Text.Contains(Text.Join(parts, sep), parts[k])
  {
    var whole := Text.Join(parts, sep);
    if |parts| == 1 {
      assert Text.OccursAt(whole, parts[0], 0);
    } else if k == 0 {
      assert whole[0..|parts[0]|] == parts[0];
      assert Text.OccursAt(whole, parts[0], 0);
    } else {
      JoinContains(parts[1..], sep, k - 1);
      var rest := Text.Join(parts[1..], sep);
      var i :| 0 <= i <= |rest| - |parts[k]| && Text.OccursAt(rest, parts[k], i);
      var off := |parts[0]| + |sep|;
      assert whole == parts[0] + sep + rest;
      assert whole[off + i..off + i + |parts[k]|] == rest[i..i + |parts[k]|];
      assert Text.OccursAt(whole, parts[k], off + i);
    }
  }
}

=== FILE: text.dfy ===
/** The Python `str` operations the playlist and stream code relies on:
    `split` on a one-character separator, `join`, `replace`, `strip`,
    decimal `str(int)` and `zfill`. */
module Text {

  /** Python's `sep.join(parts)`. */
  function Join(parts: seq<string>, sep: string): string
  {
    if |parts| == 0 then ""
    else if |parts| == 1 then parts[0]
    else parts[0] + sep + Join(parts[1..], sep)
  }

  /** Number of occurrences of `c` in `s`. */
  function Count(s: string, c: char): nat
  {
    if |s| == 0 then 0
    else (if s[0] == c then 1 else 0) + Count(s[1..], c)
  }

  /** Python's `s.split(c)` for a one-character separator: the maximal runs
      of `s` between occurrences of `c`, empty runs included. */
  function Split(s: string, c: char): (parts: seq<string>)
    ensures |parts| == Count(s, c) + 1
    ensures forall i :: 0 <= i < |parts| ==> c !in parts[i]
  {
    if |s| == 0 then [""]
    else
      var rest := Split(s[1..], c);
      if s[0] == c then [""] + rest
      else [[s[0]] + rest[0]] + rest[1..]
  }

  /** Joining the pieces of a split with the separator gives back the string. */
  lemma {:induction false} JoinSplit(s: string, c: char)
    ensures Join(Split(s, c), [c]) == s
  {
    if |s| > 0 {
      JoinSplit(s[1..], c);
      var rest := Split(s[1..], c);
      if s[0] != c {
        if |rest| > 1 {
          assert Join(rest, [c]) == rest[0] + [c] + Join(rest[1..], [c]);
        }
        assert Split(s, c)[1..] == rest[1..];
      }
    }
  }

  /** Splitting a join of separator-free pieces gives back the pieces. */
  lemma {:induction false} SplitJoin(parts: seq<string>, c: char)
    requires |parts| >= 1
    requires forall i :: 0 <= i < |parts| ==> c !in parts[i]
    ensures Split(Join(parts, [c]), c) == parts
  {
    if |parts| == 1 {
      SplitPlain(parts[0], c);
    } else {
      SplitJoin(parts[1..], c);
      SplitPrefix(parts[0], Join(parts[1..], [c]), c);
      assert [parts[0]] + parts[1..] == parts;
    }
  }

  /** Every character of a piece of a split comes from the string split. */
  lemma {:induction false} SplitPiecesFrom(s: string, c: char, i: nat, x: char)
    requires i < |Split(s, c)| && x in Split(s, c)[i]
    ensures x in s
  {
    if |s| > 0 {
      var rest := Split(s[1..], c);
      if s[0] == c {
        if i > 0 {
          SplitPiecesFrom(s[1..], c, i - 1, x);
        }
      } else if i > 0 {
        SplitPiecesFrom(s[1..], c, i, x);
      } else if x != s[0] {
        assert x in rest[0];
        SplitPiecesFrom(s[1..], c, 0, x);
      }
    }
  }

  /** A string without the separator splits into itself. */
  lemma {:induction false} SplitPlain(s: string, c: char)
    requires c !in s
    ensures Split(s, c) == [s]
  {
    if |s| > 0 {
      assert c !in s[1..];
      SplitPlain(s[1..], c);
      assert [s[0]] + s[1..] == s;
    }
  }

  /** Splitting `p + [c] + t`, where `p` lacks `c`, puts `p` first. */
  lemma {:induction false} SplitPrefix(p: string, t: string, c: char)
    requires c !in p
    ensures Split(p + [c] + t, c) == [p] + Split(t, c)
  {
    if |p| == 0 {
      assert (p + [c] + t)[1..] == t;
    } else {
      assert (p + [c] + t)[1..] == p[1..] + [c] + t;
      assert c !in p[1..];
      SplitPrefix(p[1..], t, c);
      assert [p[0]] + p[1..] == p;
    }
  }

  /** Python's `str.isspace` for one character. */
  predicate IsSpace(c: char)
  {
    var u := c as int;
    || (0x09 <= u <= 0x0D) || (0x1C <= u <= 0x20) || u == 0x85 || u == 0xA0
    || u == 0x1680 || (0x2000 <= u <= 0x200A) || u == 0x2028 || u == 0x2029
    || u == 0x202F || u == 0x205F || u == 0x3000
  }

  /** Python's `s.lstrip()`: the suffix left after the leading whitespace. */
  function LStrip(s: string): (r: string)
    ensures |r| <= |s| && r == s[|s| - |r|..]
    ensures forall k :: 0 <= k < |s| - |r| ==> IsSpace(s[k])
    ensures |r| > 0 ==> !IsSpace(r[0])
  {
    if |s| > 0 && IsSpace(s[0]) then LStrip(s[1..]) else s
  }

  /** Python's `s.rstrip()`: the prefix left before the trailing whitespace. */
  function RStrip(s: string): (r: string)
    ensures |r| <= |s| && r == s[..|r|]
    ensures forall k :: |r| <= k < |s| ==> IsSpace(s[k])
    ensures |r| > 0 ==> !IsSpace(r[|r| - 1])
  {
    if |s| > 0 && IsSpace(s[|s| - 1]) then RStrip(s[..|s| - 1]) else s
  }

  /** Python's `s.strip()`: `s` without leading and trailing whitespace. */
  function Strip(s: string): (r: string)
    ensures |r| > 0 ==> !IsSpace(r[0]) && !IsSpace(r[|r| - 1])
  {
    RStrip(LStrip(s))
  }

  /** What `strip` keeps is the piece of the input after the leading
      whitespace. */
  lemma StripKeepsPiece(s: string)
    ensures var r := Strip(s); var i := |s| - |LStrip(s)|;
      i + |r| <= |s| && r == s[i..i + |r|]
  {
    var l := LStrip(s);
    var i := |s| - |l|;
    var r := RStrip(l);
    assert Strip(s) == r == l[..|r|];
    SliceOfSuffix(s, i, |r|);
  }

  lemma SliceOfSuffix<T>(s: seq<T>, i: nat, m: nat)
    requires i + m <= |s|
    ensures s[i..][..m] == s[i..i + m]
  {
  }

  /** What `strip` removes on the right is whitespace. */
  lemma StripDropsTrailing(s: string)
    ensures var r := Strip(s); var i := |s| - |LStrip(s)|;
      forall k :: i + |r| <= k < |s| ==> IsSpace(s[k])
  {
    var l := LStrip(s);
    var r := RStrip(l);
    var i := |s| - |l|;
    assert r == Strip(s);
    forall k | i + |r| <= k < |s|
      ensures IsSpace(s[k])
    {
      assert s[k] == l[k - i];
    }
  }

  /** What `strip` removes is whitespace, and what it keeps is one
      contiguous piece of the input. */
  lemma StripIsSlice(s: string)
    ensures var r := Strip(s); var i := |s| - |LStrip(s)|;
      && i + |r| <= |s|
      && r == s[i..i + |r|]
      && (forall k :: 0 <= k < i ==> IsSpace(s[k]))
      && (forall k :: i + |r| <= k < |s| ==> IsSpace(s[k]))
  {
    StripKeepsPiece(s);
    StripDropsTrailing(s);
  }

  /** `pat` occurs in `s` starting at position `i`. */
  predicate OccursAt(s: string, pat: string, i: int)
  {
    0 <= i <= |s| - |pat| && s[i..i + |pat|] == pat
  }

  /** `s` contains `pat` as a contiguous piece. */
  predicate Contains(s: string, pat: string)
  {
    exists i :: 0 <= i <= |s| - |pat| && OccursAt(s, pat, i)
  }

  /** A piece of `s` is a piece of any text that has `s` inside it. */
  lemma ContainsWithin(pre: string, s: string, post: string, pat: string)
    requires Contains(s, pat)
    ensures Contains(pre + s + post, pat)
  {
    var i :| 0 <= i <= |s| - |pat| && OccursAt(s, pat, i);
    var whole := pre + s + post;
    assert whole[|pre| + i..|pre| + i + |pat|] == s[i..i + |pat|];
    assert OccursAt(whole, pat, |pre| + i);
  }

  /** Python's `s.replace(pat, rep)` for a non-empty pattern: every
      occurrence found scanning left to right, without overlap, is replaced. */
  function ReplaceAll(s: string, pat: string, rep: string): string
    requires |pat| > 0
    decreases |s|
  {
    if |s| < |pat| then s
    else if s[..|pat|] == pat then rep + ReplaceAll(s[|pat|..], pat, rep)
    else [s[0]] + ReplaceAll(s[1..], pat, rep)
  }

  /** A string that does not contain the pattern is left as it is. */
  lemma {:induction false} ReplaceAbsent(s: string, pat: string, rep: string)
    requires |pat| > 0
    requires !Contains(s, pat)
    ensures ReplaceAll(s, pat, rep) == s
    decreases |s|
  {
    if |s| >= |pat| {
      assert !OccursAt(s, pat, 0);
      assert s[0..0 + |pat|] == s[..|pat|];
      assert !Contains(s[1..], pat) by {
        forall i | OccursAt(s[1..], pat, i)
          ensures false
        {
          assert s[1..][i..i + |pat|] == s[i + 1..i + 1 + |pat|];
          assert OccursAt(s, pat, i + 1);
        }
      }
      ReplaceAbsent(s[1..], pat, rep);
    }
  }

  /** Deleting occurrences never lengthens the string. */
  lemma {:induction false} ReplaceByEmptyShrinks(s: string, pat: string)
    requires |pat| > 0
    ensures |ReplaceAll(s, pat, "")| <= |s|
    decreases |s|
  {
    if |s| >= |pat| {
      if s[..|pat|] == pat {
        ReplaceByEmptyShrinks(s[|pat|..], pat);
      } else {
        ReplaceByEmptyShrinks(s[1..], pat);
      }
    }
  }

  predicate IsDigit(c: char)
  {
    '0' <= c <= '9'
  }

  predicate AllDigits(s: string)
  {
    forall k :: 0 <= k < |s| ==> IsDigit(s[k])
  }

  function DigitChar(d: nat): (c: char)
    requires d < 10
    ensures IsDigit(c) && c as int - '0' as int == d
  {
    ('0' as int + d) as char
  }

  /** The number a string of decimal digits denotes. */
  function DecimalValue(s: string): nat
    requires AllDigits(s)
  {
    if |s| == 0 then 0
    else DecimalValue(s[..|s| - 1]) * 10 + (s[|s| - 1] as int - '0' as int)
  }

  /** Python's `str(n)` for a natural number: its decimal digits, with no
      leading zero except for `0` itself. */
  function NatToString(n: nat): (r: string)
    ensures |r| >= 1 && AllDigits(r)
    ensures |r| > 1 ==> r[0] != '0'
  {
    if n < 10 then [DigitChar(n)]
    else NatToString(n / 10) + [DigitChar(n % 10)]
  }

  /** Python's `str(i)` for any integer. */
  function IntToString(i: int): string
  {
    if i < 0 then "-" + NatToString(-i) else NatToString(i)
  }

  /** Reading back the decimal text of `n` gives `n`. */
  lemma {:induction false} DecimalRoundTrip(n: nat)
    ensures DecimalValue(NatToString(n)) == n
  {
    if n >= 10 {
      DecimalRoundTrip(n / 10);
      var s := NatToString(n);
      assert s[..|s| - 1] == NatToString(n / 10);
    }
  }

  /** Leading zeros do not change the value of a digit string. */
  lemma {:induction false} LeadingZeros(z: nat, s: string)
    requires AllDigits(s)
    ensures AllDigits(Repeat('0', z) + s)
    ensures DecimalValue(Repeat('0', z) + s) == DecimalValue(s)
    decreases |s|
  {
    var t := Repeat('0', z) + s;
    if |s| == 0 {
      assert t == Repeat('0', z);
      ZerosValue(z);
    } else {
      assert t[..|t| - 1] == Repeat('0', z) + s[..|s| - 1];
      LeadingZeros(z, s[..|s| - 1]);
    }
  }

  lemma {:induction false} ZerosValue(z: nat)
    ensures AllDigits(Repeat('0', z))
    ensures DecimalValue(Repeat('0', z)) == 0
  {
    if z > 0 {
      assert Repeat('0', z)[..z - 1] == Repeat('0', z - 1);
      ZerosValue(z - 1);
    }
  }

  /** A smaller number never needs more digits. */
  lemma {:induction false} DigitsMonotone(i: nat, n: nat)
    requires i <= n
    ensures |NatToString(i)| <= |NatToString(n)|
  {
    if i >= 10 {
      DigitsMonotone(i / 10, n / 10);
    }
  }

  function Repeat(c: char, n: nat): (r: string)
    ensures |r| == n
    ensures forall k :: 0 <= k < n ==> r[k] == c
  {
    if n == 0 then "" else Repeat(c, n - 1) + [c]
  }

  /** Python's `s.zfill(width)` for a string with no sign: `s` padded on the
      left with zeros up to `width` characters. */
  function ZFill(s: string, width: nat): (r: string)
    ensures |r| == if |s| >= width then |s| else width
    ensures r == Repeat('0', |r| - |s|) + s
  {
    if |s| >= width then s else Repeat('0', width - |s|) + s
  }

  /** Zero-filling a digit string keeps it a digit string of the same value. */
  lemma ZFillValue(s: string, width: nat)
    requires AllDigits(s)
    ensures AllDigits(ZFill(s, width)) && DecimalValue(ZFill(s, width)) == DecimalValue(s)
  {
    if |s| < width {
      LeadingZeros(width - |s|, s);
    }
  }
}

=== FILE: wrappers.dfy ===
/** Failure-compatible Option and Result datatypes used throughout the model.
    A Python function that either returns a value or raises becomes a
    function returning a Result whose error is the raised exception. */
module Wrappers {

  datatype Option<+T> = None | Some(value: T)

  datatype Result<+T, +E> = Ok(value: T) | Err(error: E) {

    predicate IsFailure() {
      Err?
    }

    function PropagateFailure<U>(): Result<U, E>
      requires Err?
    {
      Err(error)
    }

    function Extract(): T
      requires Ok?
    {
      value
    }
  }
}
